=== FILE: README.md ===
# Grid market-maker ladder bookkeeping, in Dafny

This project models the bookkeeping core of a futures market-making bot.

**The ladders.** The bot keeps two ladders of N limit orders ("rungs"):
- open longs rest below the best bid, one increment apart;
- open shorts rest above the best ask, one increment apart.

A rung with quantity 0 is *virtual*: it holds a price slot but is never sent to the exchange.

**What happens on each tick:**
- The bot takes a snapshot of the trading state, which drains the fill and expiry counters the user feed incremented.
- It moves each ladder:
  - outwards by one rung per fill or expiry;
  - outwards further when a virtual front rung is crossed by the book;
  - inwards when the book has moved away.
- When a ladder moves and its increment changed, it is rebuilt from the book; a ladder that stays keeps its old increment.
- It redistributes the inventory pool over the rungs.
- It re-posts a close order per position when that order went stale.
- The resulting cancel and post lists are filtered to real orders and cut into batches of at most five. The exchange's answers are classified, and a failed post raises the overflow flag.
- On the next iteration, the overflow flag makes the bot cancel everything and lay the ladders out afresh.

**Modules:**
- `Orders` (orders.dfy): the order value object and the wire fields derived from it.
- `TradingState` (store.dfy): the shared state record, with its event counters, snapshot, pools, close prices and flags.
- `IncrementModel` (increment.dfy): the non-rounding part of the increment model.
- `Distributor` (distributor.dfy): the greedy quantity distribution.
- `Ladder` (ladder.dfy): the rung progression and the four ladder moves. These are rebuild, shift out, shift in and the quantity diff. It also holds the closed-form shift counts.
- `Reconciler` (reconciler.dfy): one side of one tick, and the close-order rule.
- `TraderLoop` (trader.dfy): the initial ladder, the overflow recovery and one loop iteration.
- `Gateway` (gateway.dfy): batching, request shapes, response classification and its effect on the overflow flag.
- `Wrappers` (wrappers.dfy): `Option`.

**How the model is written:**
- Long and short are one generic definition over a `Direction`:
  - `Away(d, p, x)` moves a price `x` further from the book;
  - `Crosses(d, p, book)` says the book has reached or passed `p`.
- The invariant the whole core rests on is that each ladder is an arithmetic progression. Rung `i` sits at `RungPrice(d, p0, inc, i)`, which is `i` increments away from the front price `p0`, measured with the increment the loop remembers for that side.
- Numbers are Dafny `real`.
- Order ids, increments, the market price and everything the feeds deliver are parameters.

Shifting longs at 100, 99, 98, 97, 96 out by 3 gives 97, 96, 95, 94, 93: the rungs at 97 and 96 are kept and the other three become virtual (`Ladder.ShiftDownExample`).

## Model

| member | source | states |
|---|---|---|
| Orders.NewOrder | src/order_manager.rs:14-22 | price, quantity, open and long flags and the id are stored as given; the order is real exactly when its quantity is positive |
| Orders.SetQuantity | src/order_manager.rs:32-38 | only the quantity changes; price, flags and id are preserved, and realness follows the new quantity |
| Orders.ToWire | src/order_manager.rs:44-50 | side is SELL exactly when open differs from long (BUY otherwise); positionSide is LONG exactly for long orders; type LIMIT, time in force GTX; price, quantity and id carried over |
| Orders.SideTable | src/order_manager.rs:44-50 | open long buys, close long sells, open short sells, close short buys; opening and closing one direction trade on opposite sides |
| TradingState.Drain | src/memory_manager.rs:314-318 | a drain getter returns the counter's value, leaves that counter at 0 and every other counter and field unchanged |
| TradingState.DrainTwice | src/memory_manager.rs:384-400 | two drains with no event in between read n then 0, and the second leaves the state as the first left it |
| TradingState.NewFilled | src/memory_manager.rs:320-325 | a fill adds exactly 1 to its own counter and its arguments to volume, commission and realized profit; nothing else changes |
| TradingState.NewExpired | src/memory_manager.rs:333-335 | an expiry adds exactly 1 to its own counter and changes nothing else |
| TradingState.DrainSeesEvent | src/memory_manager.rs:314-335 | no event is lost: a drain after an event reads the previous count plus one, and an expiry does not touch the matching fill counter |
| TradingState.MaxOpen | src/memory_manager.rs:406-425 | the open pool is 0 in close-only mode and otherwise the room left between the position and the maximum position |
| TradingState.MaxClose | src/memory_manager.rs:414-428 | the close pool is the whole current position of that side |
| TradingState.ActivateCloseOnly | src/memory_manager.rs:607-609 | sets close-only and nothing else; afterwards both open pools are 0 |
| TradingState.ClosePrice | src/memory_manager.rs:533-538 | the long close price is at least the best ask and at least the entry plus close distance, and equals one of them; the short one is at most the best bid and the entry minus the distance, and equals one of them |
| TradingState.GetUpdates | src/memory_manager.rs:430-445 | the snapshot as written: open shifts are fills plus expiries, all open and close-expired counters are drained, but a close-fill counter is drained only when its expiry counter was 0; a repost is flagged when either close counter was positive; the rest of the state is unchanged |
| TradingState.ShortCircuitRepostsTwice | src/memory_manager.rs:436-437 | with one close-long expiry and one close-long fill pending, two snapshots with no event in between both flag a close-long repost |
| TradingState.GetUpdatesDrainBoth | src/memory_manager.rs:430-445 | the corrected snapshot reports the same values and leaves every counter at 0, changing nothing else |
| TradingState.DrainBothSecondSnapshotQuiet | src/memory_manager.rs:430-445 | with the corrected snapshot, a second tick with no event in between sees no shift and no repost |
| TradingState.StartOverflow | src/memory_manager.rs:565-568 | raises the overflow flag and counts one more overflow, nothing else |
| TradingState.ResetAll | src/memory_manager.rs:574-588 | zeroes the book, both positions and all eight counters and clears the flag; keeps the overflow count, entry prices, last open prices and the accumulators |
| TradingState.OverflowCountSurvivesReset | src/memory_manager.rs:565-588 | after overflow and reset the flag is clear but the overflow is still counted, and a new overflow counts on top of it |
| TradingState.SetNeedRestartTrue | src/memory_manager.rs:590-593 | requests a restart and raises the overflow flag without counting an overflow |
| TradingState.SetNeedRestartFalse | src/memory_manager.rs:599-601 | clears the restart request only; the overflow flag is untouched |
| TradingState.SetLastPrices | src/memory_manager.rs:270-276 | both last open prices become the market price, nothing else changes |
| IncrementModel.Amplitude | src/memory_manager.rs:464-470 | 0 below the soft position and exactly 1 at it |
| IncrementModel.AmplitudeRange | src/memory_manager.rs:507-513 | between the soft and the maximum position the amplitude lies in [1, 2], reaching 2 at the maximum |
| IncrementModel.RangeSupposed | src/memory_manager.rs:482-484 | the supposed range is 0 with no position and the half range at the maximum position |
| IncrementModel.RangeCurrent | src/memory_manager.rs:486-488 | the current range is never negative, is at least the distance the last open fill lies beyond the entry price, and is either 0 or exactly that distance |
| IncrementModel.RDelta | src/memory_manager.rs:472-480 | r_delta is 0 when the supposed range does not exceed the current one |
| IncrementModel.RDeltaZeroOrAboveOne | src/memory_manager.rs:515-531 | r_delta is either 0 or above 1, and above 1 exactly when the supposed range exceeds the current one |
| Distributor.DistributeQuantity | src/main.rs:736-750 | the loop with its early break computes the greedy distribution |
| Distributor.DistributeShape | src/main.rs:736-750 | exactly `amount` entries: a prefix of full target quantities, then one remainder that is kept only when it reaches half a step, then zeros |
| Distributor.RemainderBounds | src/main.rs:740-746 | an entry that is neither the target nor 0 lies between half a step and the target |
| Distributor.DistributeWithinPool | src/main.rs:736-750 | with a non-negative pool, the distributed quantities never sum to more than the pool |
| Distributor.AllVirtualBelowHalf | src/main.rs:744-746 | a pool below half a step yields only virtual rungs |
| Distributor.DistributeNonIncreasing | src/main.rs:736-750 | quantities never increase away from the book and are never negative |
| Ladder.RotateLeft | src/main.rs:567 | rotating left by k moves rung i+k to i and the first k rungs to the back |
| Ladder.RotateRight | src/main.rs:609 | rotating right by k moves the last k rungs to the front and rung i to i+k |
| Ladder.RotationsCancel | src/main.rs:567-609 | a right rotation undoes a left one by the same k, and two left rotations by k and N−k give the ladder back |
| Ladder.Rungs | src/main.rs:553-554 | N rungs of one direction priced as a progression from the origin with the given increment, carrying the given quantities and ids |
| Ladder.Rebuild | src/main.rs:547-556 | on an increment change every old rung is cancelled, the new ladder starts at the book with the new increment and carries the distributed quantities, and every new rung is posted |
| Ladder.Reprice | src/main.rs:558-566 | the first k rungs become fresh virtual rungs moved by the given distance; the rest are untouched |
| Ladder.Advance | src/main.rs:558-567 | shifting out by k < N rolls the ladder by k and re-prices the rolled-off rungs N increments further out as virtual rungs; k ≥ N moves every rung k increments out as virtual rungs; nothing is cancelled or posted |
| Ladder.AdvanceProgression | src/main.rs:558-567 | shifting out by k keeps the ladder a progression, with its origin k increments further out |
| Ladder.Retreat | src/main.rs:601-613 | shifting in by k < N rotates right by k, re-prices the wrapped rungs N increments in as virtual rungs and cancels exactly the wrapped rungs; k ≥ N moves and cancels every rung |
| Ladder.RetreatProgression | src/main.rs:601-613 | shifting in by k keeps the ladder a progression, with its origin k increments closer to the book |
| Ladder.ShiftDownExample | src/main.rs:558-567 | shifting longs at 100..96 out by 3 gives 97..93, keeps the two rungs at 97 and 96 and makes the other three virtual |
| Ladder.QuantityDiff | src/main.rs:569-577 | afterwards every rung carries the distributed quantity at its old price; a rung is cancelled and re-posted exactly when its quantity differed, in ladder order |
| Ladder.QuantityDiffSettles | src/main.rs:569-577 | applying the same distribution again changes nothing and sends nothing |
| Ladder.RecoverCount | src/main.rs:523-532 | the number of increments the front must move out so that it no longer crosses the book; one fewer still crosses |
| Ladder.RecoverShift | src/main.rs:523-532 | the stepping loop that counts how far a crossed virtual front must move computes that count |
| Ladder.WidenCount | src/main.rs:580-588 | the number of increments the ladder can move towards the book while every moved front is still not crossed, with the next step crossing |
| Ladder.WidenShift | src/main.rs:580-588 | the stepping loop that counts how far the ladder may move in computes that count |
| Reconciler.SideShift | src/main.rs:523-588 | the move of one side: out by the event count when there are events; otherwise out as far as a crossed virtual front needs; otherwise in as far as the book allows; otherwise stay, which happens only when there are no events, the front needs no recovery, and one step in would cross |
| Reconciler.SideMove | src/main.rs:546-625 | after a move the side carries the distributed quantities and remembers the current increment; an increment change cancels all and posts all from the book |
| Reconciler.SideTick | src/main.rs:546-709 | a side that stays is left alone and sends nothing; a side that moves ends with the distributed quantities and the current increment |
| Reconciler.SideTickValid | src/main.rs:546-709 | a tick keeps each side a progression of real rung orders in its direction, measured with the increment it remembers |
| Reconciler.SideTickFront | src/main.rs:546-709 | where the front ends up: unchanged, at the book after a rebuild, or k increments out or in |
| Reconciler.QuietTickSnug | src/main.rs:523-625 | with no events, after the tick one step in from the front crosses the book, and a virtual front no longer crosses |
| Reconciler.SideTickWithinPool | src/main.rs:551-618 | a moving side never holds more than the open pool |
| Reconciler.IncrementChangesOnlyOnRebuild | src/main.rs:547-556 | whenever the increment changed and the side moves, the side is rebuilt from the book and every rung is cancelled and posted |
| Reconciler.CloseRepost | src/main.rs:712-727 | a new close order is posted exactly when the repost flag is set or the order is stale by more than 0.005 in quantity or 5 in price; the old one is cancelled exactly when it was stale and not flagged; the new order has the current position and close price |
| Reconciler.CloseSettles | src/main.rs:712-727 | a close order just refreshed is not stale, and the next unflagged tick leaves it alone |
| TraderLoop.InterleaveIndex | src/main.rs:461-466 | the initial post list alternates long rung i and short rung i |
| TraderLoop.InitialOrders | src/main.rs:427-474 | the initial longs form a progression from market minus margin and the shorts from market plus margin, with the distributed open pools; close orders cover the positions at the close prices; everything is posted and nothing cancelled |
| TraderLoop.InitialSidesApart | src/main.rs:455-466 | every initial long is at or below market minus margin, every short at or above market plus margin, so no long is above a short |
| TraderLoop.InitialValid | src/main.rs:427-474 | the initial ladder satisfies the loop's invariant when the loop remembers the increments the ladder was laid out with (the corrected start) |
| TraderLoop.LoopStartAsWritten | src/main.rs:476-483 | the loop as written takes over the initial ladder and close orders unchanged but remembers increments read afresh after the initial post |
| TraderLoop.LoopStartAsWrittenStale | src/main.rs:452-477 | with two or more rungs, if the long increment read at the start of the loop differs from the one the ladder was laid out with, the loop starts outside its invariant |
| TraderLoop.RecoverAsWritten | src/main.rs:497-505 | the recovery as written cancels everything, lays both sides out from the market price with the current increments, records the market price as the last price, but keeps the increments recorded before the overflow |
| TraderLoop.RecoverAsWrittenStale | src/main.rs:477-505 | if the increment changed during the overflow, the recovered long side is not a progression of the increment the loop remembers |
| TraderLoop.RecoverAsWrittenThenFillUneven | src/main.rs:558-567 | when the ladder was laid out at c and the remembered and current increment is 2c, one fill leaves a last gap of 3c, so the side is no longer a progression of the remembered increment |
| TraderLoop.RecoverAsWrittenThenFill | src/main.rs:558-567 | when the increment is 2c at the repost and back at c when the next fill is processed, that fill puts two long rungs at the same price |
| TraderLoop.Recover | src/main.rs:497-505 | the corrected recovery: everything cancelled, the state reset and refilled, the initial ladder reposted, and the increments it was laid out with remembered |
| TraderLoop.TraderTick | src/main.rs:506-730 | a regular tick drains every counter and changes nothing else in the state; each side remembers either its old increment or the current one |
| TraderLoop.LoopIteration | src/main.rs:496-730 | an overflow leads to a full cancel and a fresh ladder with current increments; otherwise a regular tick that sends no cancel-all |
| TraderLoop.TickKeepsValid | src/main.rs:506-730 | a regular tick keeps the loop invariant: N rungs a side, each side a progression of its remembered positive increment, close orders on the right sides |
| TraderLoop.LoopKeepsValid | src/main.rs:496-730 | every iteration of the corrected loop, overflow recovery included, keeps the loop invariant; the recovery as written breaks it (`TraderLoop.RecoverAsWrittenStale`) |
| Gateway.RealOrders | src/main.rs:892-899 | only orders with a positive quantity are sent, and every one of them is |
| Gateway.ChunksShape | src/main.rs:892-903 | every chunk has between 1 and 5 orders, all but the last exactly 5, and the chunks concatenate back to the input |
| Gateway.ChunksOfFull | src/main.rs:892-903 | full chunks of five followed by a shorter tail are exactly how the input is cut |
| Gateway.CutFull | src/main.rs:892-900 | the loop keeps the real orders, closing a chunk each time it reaches five: the closed chunks hold exactly five, the open one fewer, and together they are the real orders in order |
| Gateway.BatchOrders | src/main.rs:892-903 | the loop plus the final push of a non-empty open chunk cut the real orders exactly as the greedy chunking does |
| Gateway.PostRequest | src/main.rs:906-926 | a chunk of one goes to the single-order endpoint with that order's wire fields, a larger chunk to the batch endpoint with every order's fields in order |
| Gateway.CancelRequest | src/main.rs:956-976 | a chunk of one is cancelled by its id on the single-order endpoint, a larger chunk by the list of its ids |
| Gateway.PostRequests | src/main.rs:884-932 | one post request per chunk, each carrying one to five orders; read in order, the requests carry exactly the wire fields of the real orders in their original order; no request at all when nothing is real |
| Gateway.CancelRequests | src/main.rs:934-982 | one cancel request per chunk, each naming one to five ids; read in order, the requests name exactly the ids of the real orders in their original order; no request at all when nothing is real |
| Gateway.ClassifyPost | src/main.rs:1000-1042 | a post fails exactly when the body does not parse, a top-level status is not NEW, a top-level code other than -2022 is present, or some element has a non-NEW status, a wrong code, or neither field |
| Gateway.ClassifyCancel | src/main.rs:1067-1092 | a cancel fails exactly when the body does not parse, a top-level status is not CANCELED, or some element lacks a CANCELED status |
| Gateway.VacuousPostSuccess | src/main.rs:1002-1038 | an empty object, an empty array or a bare scalar counts as a successful post, while an array with an empty element does not |
| Gateway.ToleratedCodePostOnly | src/main.rs:1010-1015 | a response carrying code -2022 is tolerated for a post and refused for a cancel |
| Gateway.ApplyPostResponses | src/main.rs:1043-1046 | every failed post body counts one overflow, the flag ends raised exactly when it was raised or some body failed, and nothing else changes |
| Gateway.FailCountZero | src/main.rs:1043-1102 | no overflow is counted exactly when every post body is a success |

## Left out

- Network I/O is not modelled: signing, URLs, timestamps, the websocket feed, the exchange-info and account requests, and the chat relay. The feed's effect on the state appears only through the `NewFilled`/`NewExpired` updates and the `feed` parameter of `TraderLoop.LoopIteration`.
- Concurrency, the global mutex, `sleep` and the parallel fan-out are not modelled. One tick is modelled sequentially, and the response bodies of one batch are a sequence in any order. The overflow recovery's two `cancel_all_orders` calls with the waits between them become one `cancelAll` flag on the outbox.
- Cancel failures only print, so the model has no state effect for them. Only post failures reach `Gateway.ApplyPostResponses`.
- The increment itself is not modelled, because it needs a square root and rounding to 0.25, 0.5 and one decimal. The long and short increments are parameters of each tick.
- `get_marketprice` is not modelled, because it rounds to a tick. The market price is a parameter.
- The decimal text formatting of price and quantity in the URL strings is not modelled. `Orders.ToWire` keeps the numbers.
- Random order ids are not modelled. Ids are parameters, one fresh sequence per batch of new orders.
- `MemoryManager::new` and the configuration reading are not modelled. `Config` holds the fields the core reads, and the other getters and setters are plain field reads.
- src/temp.rs is not part of this model: it is not compiled into the program.
- Floating-point rounding is not modelled:
  - Numbers are exact reals.
  - The initial ladder accumulates `lower_price -= increment`, while the model prices rung i at i·increment.
  - The u64 counters are unbounded naturals.
- Reconciler.SideShift requires a positive remembered increment and at least one rung:
  - with an increment of 0, the source's recovery loop (src/main.rs:523-532) never ends once the front crosses, and the loop that counts how far to move in (src/main.rs:580-588) never ends once one step in does not cross;
  - with no rung, the source panics on `orders[0]`.
- IncrementModel.Amplitude, IncrementModel.RangeSupposed and IncrementModel.RDelta require non-zero divisors, because the source's division by zero yields infinity or NaN.
- Gateway.ClassifyPost: JSON numbers are split into integers and fractions. `as_i64` is modelled as "an integer within the signed 64-bit range", which leaves out the json crate's conversion of exact-integer floats. Duplicate object keys are not modelled.
- TraderLoop.InterleaveIndex states where each rung lands in the initial post list. It does not restate that list as a permutation of the two sides.
- TraderLoop.InitialOrders / TraderLoop.InitialValid: the loop's remembered increments are those the initial ladder was laid out with (src/main.rs:452). The source re-reads them at src/main.rs:477, after the initial post was awaited; that start is `TraderLoop.LoopStartAsWritten`, described under Findings.
- TraderLoop.TraderTick uses the corrected snapshot `TradingState.GetUpdatesDrainBoth`. The as-written snapshot is kept beside it, as described under Findings.
- TraderLoop.LoopIteration: the overflow branch runs the corrected `TraderLoop.Recover`, which remembers the increments the new ladder was laid out with, where src/main.rs:497-505 keeps the ones from before the overflow. The as-written recovery is `TraderLoop.RecoverAsWritten`, described under Findings.

## Findings

| source | as written | input that shows it | evidently intended | confidence | as-written member | corrected member |
|---|---|---|---|---|---|---|
| src/main.rs:497-505 | the overflow recovery lays the ladders out with the increments of the moment, but `last_long_increment` / `last_short_increment` keep the values from before the overflow | two long rungs; the increment was c before the overflow and is 2c at the repost, because after the reset zeroed the positions an account update (src/main.rs:254-281, or the periodic account query at src/main.rs:43-47) restores a position that grew during the overflow before the repost reads the increments; the increment is c again when the next fill is processed, because the position has shrunk meanwhile | the remembered increments are the ones the ladder was laid out with, so the next shift keeps the rungs one increment apart | not executed | TraderLoop.RecoverAsWrittenThenFill | TraderLoop.Recover |
| src/main.rs:452-477 | `trader_loop` re-reads the increments at its start instead of taking those `post_initial_orders` laid the ladder out with | two long rungs; a fill or account update during the initial post changes `current_longs`, so the long increment read at line 477 differs from the one read at line 452 | the loop remembers the increments the initial ladder was laid out with, so it starts inside its invariant | not executed | TraderLoop.LoopStartAsWrittenStale | TraderLoop.InitialValid |
| src/memory_manager.rs:436-437 | `expired() > 0 \|\| filled() > 0` short-circuits, so the close-fill counter is not drained when an expiry was pending | one close-long expiry and one close-long fill pending, then two ticks with no event in between | both close counters are drained each snapshot, so one event triggers one repost | not executed | TradingState.ShortCircuitRepostsTwice | TradingState.DrainBothSecondSnapshotQuiet |

Details of the findings:
- **Stale increment after recovery.** With the as-written recovery, the shift moves the rolled-off rung c·N further out, while its neighbours are 2c apart. `TraderLoop.RecoverAsWrittenStale` shows the recovered side is no longer a progression of the remembered increment. `TraderLoop.RecoverAsWrittenThenFill` shows the two rungs end at the same price when the current increment is c again at that fill. If it is still 2c, the tick takes the increment-change branch and rebuilds the side from the book, which heals the ladder. When no account update arrives before the repost, the reset leaves the positions at zero, so the ladder is laid out at the base increment c while the loop remembers an increment 2c from before the overflow; `TraderLoop.RecoverAsWrittenThenFillUneven` shows that a fill at 2c then leaves a last gap of 3c, so the ladder is uneven although no two rungs share a price.
- **Stale increment at the start of the loop.** This is the same staleness as after recovery, at startup: the long rungs are laid out with one increment and the loop remembers another, so the first shift moves the rolled-off rung by the wrong amount.
- **Undrained close-fill counter.** Under the short-circuit, the second tick re-posts the close order again. Because the repost flag is set, it does not cancel the one just posted, so two close orders rest on the book. This step follows from the contract of `Reconciler.CloseRepost` (a flagged repost posts without cancelling); no single lemma states it for a whole tick.

=== FILE: distributor.dfy ===
/**
 * `distribute_quantity` of src/main.rs: spread an inventory pool over the N
 * rungs of one ladder side, a full target quantity per rung while the pool
 * exceeds the target, then the remainder on one rung if it is at least half a
 * quantity step, then zeros.
 */
module Distributor {

  function Zeros(n: nat): (z: seq<real>)
    ensures |z| == n && forall i :: 0 <= i < n ==> z[i] == 0.0
  {
    seq(n, _ => 0.0)
  }

  function Sum(q: seq<real>): real {
    if |q| == 0 then 0.0 else q[0] + Sum(q[1..])
  }

  /** The greedy distribution, one rung at a time from the rung nearest the book. */
  function Distribute(amount: nat, target: real, pool: real, half: real): (q: seq<real>)
    ensures |q| == amount
  {
    if amount == 0 then []
    else if pool > target then [target] + Distribute(amount - 1, target, pool - target, half)
    else [if pool >= half then pool else 0.0] + Zeros(amount - 1)
  }

  /** How many rungs receive a full target quantity. */
  function FullRungs(amount: nat, target: real, pool: real): (k: nat)
    ensures k <= amount
  {
    if amount == 0 || pool <= target then 0
    else 1 + FullRungs(amount - 1, target, pool - target)
  }

  /** The pool left over after the full rungs. */
  function Leftover(amount: nat, target: real, pool: real): real {
    if amount == 0 || pool <= target then pool
    else Leftover(amount - 1, target, pool - target)
  }

  /**
   * The loop of the source, with its early `break`.
   */
  method DistributeQuantity(amount: nat, target: real, pool0: real, half: real) returns (q: seq<real>)
    ensures q == Distribute(amount, target, pool0, half)
  {
    q := Zeros(amount);
    var pool := pool0;
    var i := 0;
    while i < amount
      invariant 0 <= i <= amount && |q| == amount
      invariant q[..i] + Distribute(amount - i, target, pool, half) == Distribute(amount, target, pool0, half)
      invariant forall j :: i <= j < amount ==> q[j] == 0.0
    {
      if pool > target {
        assert Distribute(amount - i, target, pool, half)
            == [target] + Distribute(amount - i - 1, target, pool - target, half);
        q := q[i := target];
        assert q[..i + 1] == q[..i] + [target];
        pool := pool - target;
      } else {
        ghost var tail := Distribute(amount - i, target, pool, half);
        if pool >= half {
          q := q[i := pool];
        }
        assert q == q[..i] + tail;
        assert q == Distribute(amount, target, pool0, half);
        break;
      }
      i := i + 1;
    }
    if i == amount {
      assert q[..i] == q;
    }
  }

  /**
   * The shape of a distribution: the first FullRungs entries are the target,
   * the next one (if any) is the leftover when it reaches half a step and 0
   * otherwise, and everything after it is 0.
   */
  lemma {:induction false} DistributeShape(amount: nat, target: real, pool: real, half: real)
    ensures var q := Distribute(amount, target, pool, half);
      var k := FullRungs(amount, target, pool);
      && (forall i :: 0 <= i < k ==> q[i] == target)
      && (k < amount ==> q[k] == (if Leftover(amount, target, pool) >= half then Leftover(amount, target, pool) else 0.0))
      && (k < amount ==> Leftover(amount, target, pool) <= target)
      && (forall i :: k < i < amount ==> q[i] == 0.0)
    decreases amount
  {
    if amount > 0 && pool > target {
      DistributeShape(amount - 1, target, pool - target, half);
      DistributeFull(amount, target, pool, half);
    }
  }

  /** Above the target, the nearest rung is full and the rest is the distribution of what is left. */
  lemma DistributeFull(amount: nat, target: real, pool: real, half: real)
    requires amount > 0 && pool > target
    ensures var q := Distribute(amount, target, pool, half);
      var q' := Distribute(amount - 1, target, pool - target, half);
      q[0] == target && forall i :: 1 <= i < amount ==> q[i] == q'[i - 1]
  {
    var q := Distribute(amount, target, pool, half);
    var q' := Distribute(amount - 1, target, pool - target, half);
    assert q == [target] + q';
  }

  /** The remainder rung, when there is one, lies between half a step and the target. */
  lemma RemainderBounds(amount: nat, target: real, pool: real, half: real, i: nat)
    requires i < amount
    requires var q := Distribute(amount, target, pool, half); q[i] != target && q[i] != 0.0
    ensures half <= Distribute(amount, target, pool, half)[i] <= target
  {
    DistributeShape(amount, target, pool, half);
  }

  lemma SumAppendZeros(n: nat)
    ensures Sum(Zeros(n)) == 0.0
  {
    if n > 0 {
      assert Zeros(n)[1..] == Zeros(n - 1);
      SumAppendZeros(n - 1);
    }
  }

  /** Never more than the pool is handed out when the pool is not negative. */
  lemma {:induction false} DistributeWithinPool(amount: nat, target: real, pool: real, half: real)
    requires pool >= 0.0
    ensures Sum(Distribute(amount, target, pool, half)) <= pool
    decreases amount
  {
    var q := Distribute(amount, target, pool, half);
    if amount == 0 {
    } else if pool > target {
      DistributeWithinPool(amount - 1, target, pool - target, half);
      assert q[1..] == Distribute(amount - 1, target, pool - target, half);
    } else {
      assert q[1..] == Zeros(amount - 1);
      SumAppendZeros(amount - 1);
    }
  }

  /** A pool below half a step (with half a step not above the target) yields only virtual rungs. */
  lemma AllVirtualBelowHalf(amount: nat, target: real, pool: real, half: real)
    requires half <= target && pool < half
    ensures forall i :: 0 <= i < amount ==> Distribute(amount, target, pool, half)[i] == 0.0
  {
  }

  /**
   * With a non-negative target and step, quantities never increase towards
   * the far end of the ladder, so a virtual rung is followed only by virtual
   * rungs.
   */
  lemma DistributeNonIncreasing(amount: nat, target: real, pool: real, half: real)
    requires target >= 0.0 && half >= 0.0
    ensures var q := Distribute(amount, target, pool, half);
      forall i, j :: 0 <= i < j < amount ==> q[j] <= q[i] && q[j] >= 0.0
  {
    DistributeShape(amount, target, pool, half);
  }
}

=== FILE: gateway.dfy ===
/**
 * The outbound side of src/main.rs: `post_multiple_orders` and
 * `cancel_multiple_orders` keep the real orders and cut them into chunks of
 * at most five, one request per chunk; `parallel_post_requests` and
 * `parallel_delete_requests` classify each response body, and every failed
 * post starts an overflow.  Signing, URLs and the network are not modelled.
 */
module Gateway {
  import opened Wrappers
  import opened Orders
  import opened TradingState

  const BATCH_LIMIT := 5

  // ---------------------------------------------------------------- batching

  /** The orders worth sending: those with a positive quantity, in order. */
  function RealOrders(os: seq<Order>): (r: seq<Order>)
    ensures |r| <= |os|
    ensures forall o :: o in r ==> o in os && o.IsReal()
    ensures forall o :: o in os && o.IsReal() ==> o in r
  {
    if |os| == 0 then []
    else (if os[0].IsReal() then [os[0]] else []) + RealOrders(os[1..])
  }

  /** Greedy chunks: full chunks of five while more than five remain, then the rest. */
  function Chunks<T>(xs: seq<T>): (cs: seq<seq<T>>)
    decreases |xs|
  {
    if |xs| == 0 then []
    else if |xs| <= BATCH_LIMIT then [xs]
    else [xs[..BATCH_LIMIT]] + Chunks(xs[BATCH_LIMIT..])
  }

  function Flatten<T>(cs: seq<seq<T>>): seq<T> {
    if |cs| == 0 then [] else cs[0] + Flatten(cs[1..])
  }

  lemma FlattenAppend<T>(a: seq<seq<T>>, b: seq<seq<T>>)
    ensures Flatten(a + b) == Flatten(a) + Flatten(b)
  {
    if |a| > 0 {
      assert (a + b)[0] == a[0];
      assert (a + b)[1..] == a[1..] + b;
      FlattenAppend(a[1..], b);
      assert Flatten(a + b) == a[0] + Flatten(a[1..] + b);
      assert Flatten(a) == a[0] + Flatten(a[1..]);
      assert a[0] + (Flatten(a[1..]) + Flatten(b)) == (a[0] + Flatten(a[1..])) + Flatten(b);
    } else {
      assert a + b == b;
    }
  }

  /**
   * Every chunk holds one to five items, every chunk but the last holds
   * exactly five, and the chunks put back together are the input.
   */
  lemma {:induction false} ChunksShape<T>(xs: seq<T>)
    ensures var cs := Chunks(xs);
      && Flatten(cs) == xs
      && (forall i :: 0 <= i < |cs| ==> 1 <= |cs[i]| <= BATCH_LIMIT)
      && (forall i :: 0 <= i < |cs| - 1 ==> |cs[i]| == BATCH_LIMIT)
      && |cs| == (|xs| + BATCH_LIMIT - 1) / BATCH_LIMIT
    decreases |xs|
  {
    if |xs| > BATCH_LIMIT {
      var rest := Chunks(xs[BATCH_LIMIT..]);
      ChunksShape(xs[BATCH_LIMIT..]);
      assert Chunks(xs) == [xs[..BATCH_LIMIT]] + rest;
      assert Flatten(Chunks(xs)) == xs[..BATCH_LIMIT] + Flatten(rest);
      assert xs == xs[..BATCH_LIMIT] + xs[BATCH_LIMIT..];
    } else if |xs| > 0 {
      assert Flatten(Chunks(xs)) == xs + Flatten<T>([]);
    }
  }

  /** Full chunks followed by a short tail chunk are exactly what Chunks cuts. */
  lemma {:induction false} ChunksOfFull<T>(full: seq<seq<T>>, tail: seq<T>)
    requires forall i :: 0 <= i < |full| ==> |full[i]| == BATCH_LIMIT
    requires |tail| < BATCH_LIMIT
    ensures Chunks(Flatten(full) + tail) == full + (if |tail| > 0 then [tail] else [])
  {
    if |full| > 0 {
      var rest := Flatten(full[1..]) + tail;
      ChunksOfFull(full[1..], tail);
      assert Flatten(full) + tail == full[0] + rest;
      assert full == [full[0]] + full[1..];
      if |rest| == 0 {
        assert Chunks<T>([]) == [];
        assert full[1..] == [];
        assert full[0] + rest == full[0];
      } else {
        assert (full[0] + rest)[..BATCH_LIMIT] == full[0];
        assert (full[0] + rest)[BATCH_LIMIT..] == rest;
      }
    } else {
      assert Flatten(full) + tail == tail;
    }
  }

  /**
   * The batching loop of `post_multiple_orders` / `cancel_multiple_orders`:
   * the chunks closed when they reach five, and the chunk still open.
   */
  method CutFull(os: seq<Order>) returns (full: seq<seq<Order>>, tail: seq<Order>)
    ensures Flatten(full) + tail == RealOrders(os)
    ensures forall j :: 0 <= j < |full| ==> |full[j]| == BATCH_LIMIT
    ensures |tail| < BATCH_LIMIT
  {
    full, tail := [], [];
    var i := 0;
    while i < |os|
      invariant 0 <= i <= |os|
      invariant Flatten(full) + tail == RealOrders(os[..i])
      invariant forall j :: 0 <= j < |full| ==> |full[j]| == BATCH_LIMIT
      invariant |tail| < BATCH_LIMIT
    {
      assert os[..i + 1] == os[..i] + [os[i]];
      TakeOne(full, tail, os[..i], os[i]);
      var next := tail + (if os[i].IsReal() then [os[i]] else []);
      if |next| >= BATCH_LIMIT {
        CloseChunk(full, next);
        full, tail := full + [next], [];
      } else {
        tail := next;
      }
      i := i + 1;
    }
    assert os[..i] == os;
  }

  /** The whole batching of the source: the loop, then the tail chunk if it holds anything. */
  method BatchOrders(os: seq<Order>) returns (chunks: seq<seq<Order>>)
    ensures chunks == Chunks(RealOrders(os))
  {
    var full, tail := CutFull(os);
    ChunksOfFull(full, tail);
    chunks := if |tail| > 0 then full + [tail] else full;
  }

  lemma CloseChunk<T>(chunks: seq<seq<T>>, current: seq<T>)
    ensures Flatten(chunks + [current]) + [] == Flatten(chunks) + current
  {
    FlattenAppend(chunks, [current]);
    assert Flatten([current]) == current + Flatten<T>([]);
  }

  /** One step of the batching loop keeps the chunks plus the open chunk equal to the real orders seen. */
  lemma TakeOne(chunks: seq<seq<Order>>, current: seq<Order>, seen: seq<Order>, o: Order)
    requires Flatten(chunks) + current == RealOrders(seen)
    ensures Flatten(chunks) + (current + (if o.IsReal() then [o] else [])) == RealOrders(seen + [o])
  {
    RealOrdersSnoc(seen, o);
  }

  lemma RealOrdersSnoc(os: seq<Order>, o: Order)
    ensures RealOrders(os + [o]) == RealOrders(os) + (if o.IsReal() then [o] else [])
  {
    if |os| > 0 {
      assert (os + [o])[1..] == os[1..] + [o];
      RealOrdersSnoc(os[1..], o);
    }
  }

  // ---------------------------------------------------------------- requests

  /** A request per chunk: a chunk of one goes to the single-order endpoint, a larger one to the batch endpoint. */
  datatype Request =
    | PostSingle(order: WireOrder)
    | PostBatch(orders: seq<WireOrder>)
    | CancelSingle(id: OrderId)
    | CancelBatch(ids: seq<OrderId>)

  function PostRequest(chunk: seq<Order>): (r: Request)
    requires |chunk| >= 1
    ensures |chunk| == 1 <==> r.PostSingle?
    ensures r.PostSingle? ==> r.order == ToWire(chunk[0])
    ensures r.PostBatch? ==> |r.orders| == |chunk| && forall j :: 0 <= j < |chunk| ==> r.orders[j] == ToWire(chunk[j])
  {
    if |chunk| == 1 then PostSingle(ToWire(chunk[0]))
    else PostBatch(seq(|chunk|, j requires 0 <= j < |chunk| => ToWire(chunk[j])))
  }

  function CancelRequest(chunk: seq<Order>): (r: Request)
    requires |chunk| >= 1
    ensures |chunk| == 1 <==> r.CancelSingle?
    ensures r.CancelSingle? ==> r.id == chunk[0].id
    ensures r.CancelBatch? ==> |r.ids| == |chunk| && forall j :: 0 <= j < |chunk| ==> r.ids[j] == chunk[j].id
  {
    if |chunk| == 1 then CancelSingle(chunk[0].id)
    else CancelBatch(seq(|chunk|, j requires 0 <= j < |chunk| => chunk[j].id))
  }

  /** The wire orders a post request carries, in request order. */
  function Carried(r: Request): seq<WireOrder> {
    match r
    case PostSingle(o) => [o]
    case PostBatch(ws) => ws
    case _ => []
  }

  /** The ids a cancel request names, in request order. */
  function CarriedIds(r: Request): seq<OrderId> {
    match r
    case CancelSingle(id) => [id]
    case CancelBatch(ids) => ids
    case _ => []
  }

  function CarriedAll(rs: seq<Request>): seq<WireOrder> {
    if |rs| == 0 then [] else Carried(rs[0]) + CarriedAll(rs[1..])
  }

  function CarriedIdsAll(rs: seq<Request>): seq<OrderId> {
    if |rs| == 0 then [] else CarriedIds(rs[0]) + CarriedIdsAll(rs[1..])
  }

  function Wires(os: seq<Order>): (ws: seq<WireOrder>)
    ensures |ws| == |os| && forall i :: 0 <= i < |os| ==> ws[i] == ToWire(os[i])
  {
    seq(|os|, i requires 0 <= i < |os| => ToWire(os[i]))
  }

  function Ids(os: seq<Order>): (ids: seq<OrderId>)
    ensures |ids| == |os| && forall i :: 0 <= i < |os| ==> ids[i] == os[i].id
  {
    seq(|os|, i requires 0 <= i < |os| => os[i].id)
  }

  /** One request carries exactly its chunk. */
  lemma PostCarries(chunk: seq<Order>)
    requires 1 <= |chunk|
    ensures Carried(PostRequest(chunk)) == Wires(chunk)
  {
  }

  lemma CancelCarries(chunk: seq<Order>)
    requires 1 <= |chunk|
    ensures CarriedIds(CancelRequest(chunk)) == Ids(chunk)
  {
  }

  /** Requests made chunk by chunk carry the chunks' orders, in order, one to five per request. */
  lemma {:induction false} PostChunks(cs: seq<seq<Order>>, rs: seq<Request>)
    requires |rs| == |cs|
    requires forall i :: 0 <= i < |cs| ==> 1 <= |cs[i]| <= BATCH_LIMIT && rs[i] == PostRequest(cs[i])
    ensures forall i :: 0 <= i < |rs| ==> 1 <= |Carried(rs[i])| <= BATCH_LIMIT
    ensures CarriedAll(rs) == Wires(Flatten(cs))
    decreases |cs|
  {
    forall i | 0 <= i < |rs| ensures 1 <= |Carried(rs[i])| <= BATCH_LIMIT {
      PostCarries(cs[i]);
    }
    if |cs| > 0 {
      var head, tail := cs[0], cs[1..];
      assert forall i :: 0 <= i < |tail| ==> tail[i] == cs[i + 1] && rs[1..][i] == rs[i + 1];
      PostChunks(tail, rs[1..]);
      PostStep(rs, head, Flatten(tail));
    }
  }

  /** Putting one more request in front adds its chunk in front of what the rest carry. */
  lemma PostStep(rs: seq<Request>, head: seq<Order>, rest: seq<Order>)
    requires |rs| > 0 && 1 <= |head| && rs[0] == PostRequest(head)
    requires CarriedAll(rs[1..]) == Wires(rest)
    ensures CarriedAll(rs) == Wires(head + rest)
  {
    PostCarries(head);
    WiresAppend(head, rest);
  }

  lemma WiresAppend(a: seq<Order>, b: seq<Order>)
    ensures Wires(a + b) == Wires(a) + Wires(b)
  {
    forall i | 0 <= i < |a| + |b| ensures Wires(a + b)[i] == (Wires(a) + Wires(b))[i] {
      if i < |a| {
        assert (a + b)[i] == a[i];
      } else {
        assert (a + b)[i] == b[i - |a|];
      }
    }
  }

  lemma {:induction false} CancelChunks(cs: seq<seq<Order>>, rs: seq<Request>)
    requires |rs| == |cs|
    requires forall i :: 0 <= i < |cs| ==> 1 <= |cs[i]| <= BATCH_LIMIT && rs[i] == CancelRequest(cs[i])
    ensures forall i :: 0 <= i < |rs| ==> 1 <= |CarriedIds(rs[i])| <= BATCH_LIMIT
    ensures CarriedIdsAll(rs) == Ids(Flatten(cs))
    decreases |cs|
  {
    forall i | 0 <= i < |rs| ensures 1 <= |CarriedIds(rs[i])| <= BATCH_LIMIT {
      CancelCarries(cs[i]);
    }
    if |cs| > 0 {
      var head, tail := cs[0], cs[1..];
      assert forall i :: 0 <= i < |tail| ==> tail[i] == cs[i + 1] && rs[1..][i] == rs[i + 1];
      CancelChunks(tail, rs[1..]);
      CancelCarries(head);
      calc {
        CarriedIdsAll(rs);
        CarriedIds(rs[0]) + CarriedIdsAll(rs[1..]);
        Ids(head) + Ids(Flatten(tail));
        { assert Ids(head + Flatten(tail)) == Ids(head) + Ids(Flatten(tail)); }
        Ids(head + Flatten(tail));
      }
    }
  }

  /**
   * `post_multiple_orders`: one request per chunk of the real orders, each
   * carrying one to five orders; read in order, the requests carry exactly
   * the real orders in their original order, and none at all is made when no
   * order is real.
   */
  function PostRequests(os: seq<Order>): (rs: seq<Request>)
    ensures |rs| == |Chunks(RealOrders(os))|
    ensures forall i :: 0 <= i < |rs| ==> rs[i].PostSingle? || rs[i].PostBatch?
    ensures forall i :: 0 <= i < |rs| ==> 1 <= |Carried(rs[i])| <= BATCH_LIMIT
    ensures CarriedAll(rs) == Wires(RealOrders(os))
    ensures RealOrders(os) == [] <==> rs == []
  {
    var cs := Chunks(RealOrders(os));
    ChunksShape(RealOrders(os));
    var rs := seq(|cs|, i requires 0 <= i < |cs| => PostRequest(cs[i]));
    PostChunks(cs, rs);
    rs
  }

  /**
   * `cancel_multiple_orders`: one request per chunk of the real orders, each
   * naming one to five ids; read in order, the requests name exactly the ids
   * of the real orders in their original order.
   */
  function CancelRequests(os: seq<Order>): (rs: seq<Request>)
    ensures |rs| == |Chunks(RealOrders(os))|
    ensures forall i :: 0 <= i < |rs| ==> rs[i].CancelSingle? || rs[i].CancelBatch?
    ensures forall i :: 0 <= i < |rs| ==> 1 <= |CarriedIds(rs[i])| <= BATCH_LIMIT
    ensures CarriedIdsAll(rs) == Ids(RealOrders(os))
    ensures RealOrders(os) == [] <==> rs == []
  {
    var cs := Chunks(RealOrders(os));
    ChunksShape(RealOrders(os));
    var rs := seq(|cs|, i requires 0 <= i < |cs| => CancelRequest(cs[i]));
    CancelChunks(cs, rs);
    rs
  }

  // ---------------------------------------------------------------- responses

  /**
   * A parsed JSON body.  Numbers are split into integers and numbers with a
   * fractional part; objects are maps from key to value.
   */
  datatype Json =
    | JNull
    | JBool(b: bool)
    | JInt(i: int)
    | JFrac(x: real)
    | JStr(s: string)
    | JArr(items: seq<Json>)
    | JObj(fields: map<string, Json>)

  /** `value["key"]`: the field of an object, Null for a missing key or a non-object. */
  function Field(j: Json, key: string): Json {
    if j.JObj? && key in j.fields then j.fields[key] else JNull
  }

  /** `value[i]`: the element of an array, Null out of range or for a non-array. */
  function Index(j: Json, i: nat): Json {
    if j.JArr? && i < |j.items| then j.items[i] else JNull
  }

  /** `len()`: array length, number of object fields, 0 for anything else. */
  function Len(j: Json): nat {
    match j
    case JArr(items) => |items|
    case JObj(fields) => |fields|
    case _ => 0
  }

  function AsStr(j: Json): Option<string> {
    if j.JStr? then Some(j.s) else None
  }

  const I64_MIN := -0x8000_0000_0000_0000
  const I64_MAX := 0x7fff_ffff_ffff_ffff

  /** `as_i64()`: an integer within the 64-bit signed range. */
  function AsI64(j: Json): Option<int> {
    if j.JInt? && I64_MIN <= j.i <= I64_MAX then Some(j.i) else None
  }

  /** The one top-level error code a post response may carry and still count as a success. */
  const TOLERATED_POST_CODE := -2022

  /** One placed order: status "NEW", or no status and code -2022. */
  predicate PostElementOk(e: Json) {
    match AsStr(Field(e, "status"))
    case Some(st) => st == "NEW"
    case None => AsI64(Field(e, "code")) == Some(TOLERATED_POST_CODE)
  }

  predicate HasStatusOrCode(j: Json) {
    AsStr(Field(j, "status")).Some? || AsI64(Field(j, "code")).Some?
  }

  /**
   * A post response: a single-order body judged by its status or code, or a
   * batch body whose every element is judged the same way.  An unparseable
   * body fails.
   */
  predicate PostResponseOk(body: Option<Json>) {
    match body
    case None => false
    case Some(j) =>
      if HasStatusOrCode(j) then PostElementOk(j)
      else forall i :: 0 <= i < Len(j) ==> PostElementOk(Index(j, i))
  }

  /** The classification loop of `parallel_post_requests`, with its early `break`. */
  method ClassifyPost(body: Option<Json>) returns (failed: bool)
    ensures failed <==> !PostResponseOk(body)
  {
    failed := false;
    if body.None? {
      failed := true;
      return;
    }
    var j := body.value;
    var single := AsStr(Field(j, "status"));
    if single.Some? {
      failed := single.value != "NEW";
      return;
    }
    var code := AsI64(Field(j, "code"));
    if code.Some? {
      failed := code.value != TOLERATED_POST_CODE;
      return;
    }
    var i := 0;
    while i < Len(j)
      invariant 0 <= i <= Len(j)
      invariant !failed
      invariant forall k :: 0 <= k < i ==> PostElementOk(Index(j, k))
    {
      var e := Index(j, i);
      var status := AsStr(Field(e, "status"));
      if status.Some? {
        if status.value != "NEW" {
          failed := true;
          break;
        }
      } else {
        var c := AsI64(Field(e, "code"));
        if c.Some? {
          if c.value != TOLERATED_POST_CODE {
            failed := true;
            break;
          }
        } else {
          failed := true;
          break;
        }
      }
      i := i + 1;
    }
  }

  /** A cancelled order: status "CANCELED"; a code is never accepted. */
  predicate CancelElementOk(e: Json) {
    AsStr(Field(e, "status")) == Some("CANCELED")
  }

  predicate CancelResponseOk(body: Option<Json>) {
    match body
    case None => false
    case Some(j) =>
      if AsStr(Field(j, "status")).Some? then CancelElementOk(j)
      else forall i :: 0 <= i < Len(j) ==> CancelElementOk(Index(j, i))
  }

  /** The classification loop of `parallel_delete_requests`. */
  method ClassifyCancel(body: Option<Json>) returns (failed: bool)
    ensures failed <==> !CancelResponseOk(body)
  {
    failed := false;
    if body.None? {
      failed := true;
      return;
    }
    var j := body.value;
    var single := AsStr(Field(j, "status"));
    if single.Some? {
      failed := single.value != "CANCELED";
      return;
    }
    var i := 0;
    while i < Len(j)
      invariant 0 <= i <= Len(j)
      invariant !failed
      invariant forall k :: 0 <= k < i ==> CancelElementOk(Index(j, k))
    {
      var status := AsStr(Field(Index(j, i), "status"));
      if status.Some? {
        if status.value != "CANCELED" {
          failed := true;
          break;
        }
      } else {
        failed := true;
        break;
      }
      i := i + 1;
    }
  }

  /**
   * What the classification accepts besides real confirmations: a body
   * with neither status nor code and nothing to iterate over (an empty
   * object, an empty array, a bare number or string) counts as a post
   * success, while an element with neither field is a failure.
   */
  lemma VacuousPostSuccess(j: Json)
    requires j == JObj(map[]) || j == JArr([]) || j.JInt? || j.JFrac? || j.JStr? || j.JBool? || j == JNull
    ensures PostResponseOk(Some(j))
    ensures !PostResponseOk(Some(JArr([JObj(map[])])))
    ensures !PostResponseOk(Some(JArr([JNull])))
  {
    assert Index(JArr([JObj(map[])]), 0) == JObj(map[]);
    assert Index(JArr([JNull]), 0) == JNull;
  }

  /** A response carrying code -2022 is accepted for a post and refused for a cancel. */
  lemma ToleratedCodePostOnly()
    ensures PostResponseOk(Some(JObj(map["code" := JInt(TOLERATED_POST_CODE)])))
    ensures !CancelResponseOk(Some(JObj(map["code" := JInt(TOLERATED_POST_CODE)])))
  {
    var j := JObj(map["code" := JInt(TOLERATED_POST_CODE)]);
    assert Len(j) == 1;
    assert Index(j, 0) == JNull;
  }

  // ---------------------------------------------------------------- effects

  function FailCount(bodies: seq<Option<Json>>): (n: nat)
    ensures n <= |bodies|
  {
    if |bodies| == 0 then 0
    else (if PostResponseOk(bodies[0]) then 0 else 1) + FailCount(bodies[1..])
  }

  /**
   * Every failed post response calls `order_overflow`: the flag is set and
   * the overflow count goes up by one per failure.  Cancel responses are
   * only reported and change no state.
   */
  function ApplyPostResponses(s: Store, bodies: seq<Option<Json>>): (r: Store)
    decreases |bodies|
    ensures r.overflowCount == s.overflowCount + FailCount(bodies)
    ensures r.overflow <==> s.overflow || FailCount(bodies) > 0
    ensures r.(overflow := s.overflow, overflowCount := s.overflowCount) == s
  {
    if |bodies| == 0 then s
    else
      var s1 := if PostResponseOk(bodies[0]) then s else StartOverflow(s);
      ApplyPostResponses(s1, bodies[1..])
  }

  /** Overflow is raised exactly when some body fails: all-good responses leave the state alone. */
  lemma {:induction false} FailCountZero(bodies: seq<Option<Json>>)
    ensures FailCount(bodies) == 0 <==> forall i :: 0 <= i < |bodies| ==> PostResponseOk(bodies[i])
  {
    if |bodies| > 0 {
      FailCountZero(bodies[1..]);
      assert forall i :: 1 <= i < |bodies| ==> bodies[i] == bodies[1..][i - 1];
    }
  }
}

=== FILE: increment.dfy ===
/**
 * The part of the increment model of src/memory_manager.rs that does not
 * round: the amplitude of the inventory skew, the supposed and the current
 * price range, and the range deficit r_delta.  The square root and the
 * rounding of the final increment are not modelled; the final increments are
 * parameters of the reconciler.
 */
module IncrementModel {
  import opened Orders
  import opened TradingState

  /**
   * `get_long_amplitude` / `get_short_amplitude`: 0 below the soft position,
   * 1 at it, growing linearly to 2 at the maximum position.
   */
  function Amplitude(s: Store, d: Direction): (r: real)
    requires Position(s, d) < s.cfg.softPosition || s.cfg.maxPosition != s.cfg.softPosition
    ensures Position(s, d) < s.cfg.softPosition ==> r == 0.0
    ensures Position(s, d) == s.cfg.softPosition ==> r == 1.0
  {
    var p := Position(s, d);
    if p >= s.cfg.softPosition then
      (p - s.cfg.softPosition) / (s.cfg.maxPosition - s.cfg.softPosition) + 1.0
    else 0.0
  }

  /** When the maximum lies above the soft position, the amplitude is 1 plus the fraction of the way there. */
  lemma AmplitudeRange(s: Store, d: Direction)
    requires s.cfg.softPosition < s.cfg.maxPosition
    requires s.cfg.softPosition <= Position(s, d) <= s.cfg.maxPosition
    ensures 1.0 <= Amplitude(s, d) <= 2.0
    ensures Position(s, d) == s.cfg.maxPosition ==> Amplitude(s, d) == 2.0
  {
    var p := Position(s, d);
    var num := p - s.cfg.softPosition;
    var den := s.cfg.maxPosition - s.cfg.softPosition;
    assert 0.0 <= num <= den;
    DivAtMostOne(num, den);
    if p == s.cfg.maxPosition {
      assert num / den == 1.0;
    }
  }

  lemma DivAtMostOne(a: real, b: real)
    requires 0.0 <= a <= b && b > 0.0
    ensures 0.0 <= a / b <= 1.0
  {
  }

  /** `half_range`, fixed at start-up: 0.9 * increment * max_position / (2 * order_quantity). */
  function HalfRange(cfg: Config): real
    requires cfg.orderQuantity != 0.0
  {
    (0.9 * cfg.increment * cfg.maxPosition) / (2.0 * cfg.orderQuantity)
  }

  /** `get_*_range_supposed`: the price excursion the position size suggests. */
  function RangeSupposed(s: Store, d: Direction): (r: real)
    requires s.cfg.orderQuantity != 0.0 && s.cfg.maxPosition != 0.0
    ensures Position(s, d) == 0.0 ==> r == 0.0
    ensures Position(s, d) == s.cfg.maxPosition ==> r == HalfRange(s.cfg)
  {
    HalfRange(s.cfg) * Position(s, d) / s.cfg.maxPosition
  }

  /**
   * `get_*_range_current`: how far the last open fill lies beyond the entry
   * price (below it for longs, above it for shorts), never negative.
   */
  function RangeCurrent(s: Store, d: Direction): (r: real)
    ensures r >= 0.0
    ensures d == Long ==> r >= s.longEntryPrice - s.lastLongOpen
    ensures d == Short ==> r >= s.lastShortOpen - s.shortEntryPrice
    ensures r == 0.0 || (d == Long && r == s.longEntryPrice - s.lastLongOpen)
                     || (d == Short && r == s.lastShortOpen - s.shortEntryPrice)
  {
    if d.IsLong() then Max(0.0, s.longEntryPrice - s.lastLongOpen)
    else Max(0.0, s.lastShortOpen - s.shortEntryPrice)
  }

  /** `get_*_r_delta`: the range deficit in increments, plus one; zero when there is no deficit. */
  function RDelta(s: Store, d: Direction): (r: real)
    requires s.cfg.orderQuantity != 0.0 && s.cfg.maxPosition != 0.0 && s.cfg.increment != 0.0
    ensures RangeSupposed(s, d) <= RangeCurrent(s, d) ==> r == 0.0
  {
    var supposed := RangeSupposed(s, d);
    var current := RangeCurrent(s, d);
    if supposed > current then (supposed - current) / s.cfg.increment + 1.0 else 0.0
  }

  /** With a positive base increment, r_delta is either 0 or above 1, and above 1 exactly when there is a deficit. */
  lemma RDeltaZeroOrAboveOne(s: Store, d: Direction)
    requires s.cfg.orderQuantity != 0.0 && s.cfg.maxPosition != 0.0 && s.cfg.increment > 0.0
    ensures RDelta(s, d) == 0.0 || RDelta(s, d) > 1.0
    ensures RDelta(s, d) > 1.0 <==> RangeSupposed(s, d) > RangeCurrent(s, d)
  {
    var supposed := RangeSupposed(s, d);
    var current := RangeCurrent(s, d);
    if supposed > current {
      assert (supposed - current) / s.cfg.increment > 0.0;
    }
  }
}

=== FILE: ladder.dfy ===
/**
 * One side of the open-order ladder of src/main.rs (`trader_loop`): N rungs,
 * rung 0 nearest the book.  Longs rest below the bid and step down by the
 * increment; shorts rest above the ask and step up.  The source writes every
 * branch twice, once per side with the signs mirrored; here each branch is
 * written once over a `Direction`.
 */
module Ladder {
  import opened Orders

  /** The price `x` further from the book than `p`: lower for longs, higher for shorts. */
  function Away(d: Direction, p: real, x: real): real {
    if d.IsLong() then p - x else p + x
  }

  /**
   * How far `p` lies past the book, towards the other side of the spread;
   * positive exactly when a rung at `p` would cross the book (above the bid
   * for a long, below the ask for a short).
   */
  function Gap(d: Direction, p: real, book: real): real {
    if d.IsLong() then p - book else book - p
  }

  /** The price of rung i of a ladder whose rung 0 is at `p0`. */
  function RungPrice(d: Direction, p0: real, inc: real, i: int): real {
    Away(d, p0, i as real * inc)
  }

  predicate Crosses(d: Direction, p: real, book: real) {
    Gap(d, p, book) > 0.0
  }

  predicate IsRung(o: Order, d: Direction) {
    o.isOpen && o.isLong == d.IsLong()
  }

  predicate AllRungs(l: seq<Order>, d: Direction) {
    forall i :: 0 <= i < |l| ==> IsRung(l[i], d)
  }

  /** Rung i is priced i increments beyond `p0`: the rungs form an arithmetic progression. */
  predicate ProgressionFrom(l: seq<Order>, d: Direction, p0: real, inc: real) {
    forall i :: 0 <= i < |l| ==> l[i].price == RungPrice(d, p0, inc, i)
  }

  /** The rungs form an arithmetic progression anchored at rung 0. */
  predicate Progression(l: seq<Order>, d: Direction, inc: real) {
    |l| == 0 || ProgressionFrom(l, d, l[0].price, inc)
  }

  /** The outcome of one reconciler branch: the new side, and what to cancel and to post. */
  datatype Step = Step(ladder: seq<Order>, cancels: seq<Order>, posts: seq<Order>)

  lemma Spread(a: int, b: int, inc: real)
    ensures (a + b) as real * inc == a as real * inc + b as real * inc
  {
  }

  lemma AwayAdds(d: Direction, p: real, x: real, y: real)
    ensures Away(d, Away(d, p, x), y) == Away(d, p, x + y)
  {
  }

  // ---------------------------------------------------------------- rotation

  /** `rotate_left(k)`: rung i + k moves to slot i, the first k wrap to the end. */
  function RotateLeft<T>(s: seq<T>, k: nat): (r: seq<T>)
    requires k <= |s|
    ensures |r| == |s|
    ensures forall i :: 0 <= i < |s| - k ==> r[i] == s[i + k]
    ensures forall i :: |s| - k <= i < |s| ==> r[i] == s[i + k - |s|]
  {
    s[k..] + s[..k]
  }

  /** `rotate_right(k)`: the last k rungs wrap to the front. */
  function RotateRight<T>(s: seq<T>, k: nat): (r: seq<T>)
    requires k <= |s|
    ensures |r| == |s|
    ensures forall i :: 0 <= i < k ==> r[i] == s[|s| - k + i]
    ensures forall i :: k <= i < |s| ==> r[i] == s[i - k]
  {
    s[|s| - k..] + s[..|s| - k]
  }

  /** Rotation is a group action on the slots: right undoes left, and left by k then by N - k is the identity. */
  lemma RotationsCancel<T>(s: seq<T>, k: nat)
    requires k <= |s|
    ensures RotateRight(RotateLeft(s, k), k) == s
    ensures RotateLeft(RotateLeft(s, k), |s| - k) == s
  {
    var n := |s|;
    var l := RotateLeft(s, k);
    var a := RotateRight(l, k);
    var b := RotateLeft(l, n - k);
    forall i | 0 <= i < n ensures a[i] == s[i] && b[i] == s[i] {
      if i < k { assert a[i] == l[n - k + i]; } else { assert a[i] == l[i - k]; }
      if i < k { assert b[i] == l[i + n - k]; } else { assert b[i] == l[i - k]; }
    }
  }

  // ---------------------------------------------------------------- rebuild

  /**
   * A fresh side: rung i priced i increments beyond `p0`, with the i-th
   * quantity and the i-th fresh id.
   */
  function Rungs(d: Direction, p0: real, inc: real, q: seq<real>, ids: seq<OrderId>): (l: seq<Order>)
    requires |ids| == |q|
    ensures |l| == |q| && AllRungs(l, d) && ProgressionFrom(l, d, p0, inc)
    ensures forall i :: 0 <= i < |q| ==> l[i].quantity == q[i] && l[i].id == ids[i]
  {
    seq(|q|, i requires 0 <= i < |q| => Order(RungPrice(d, p0, inc, i), q[i], true, d.IsLong(), ids[i]))
  }

  /**
   * Rebuild on an increment change: every prev rung goes to the cancel list,
   * the side is laid out afresh from the book with the new increment, and
   * every new rung goes to the post list.
   */
  function Rebuild(prev: seq<Order>, d: Direction, book: real, inc: real, q: seq<real>, ids: seq<OrderId>): (r: Step)
    requires |q| == |prev| && |ids| == |prev|
    ensures |r.ladder| == |prev| && r.cancels == prev && r.posts == r.ladder
    ensures AllRungs(r.ladder, d) && ProgressionFrom(r.ladder, d, book, inc)
    ensures forall i :: 0 <= i < |prev| ==> r.ladder[i].quantity == q[i] && r.ladder[i].id == ids[i]
  {
    var l := Rungs(d, book, inc, q, ids);
    Step(l, prev, l)
  }

  // ---------------------------------------------------------------- shifting

  /** Move the first k rungs `x` further from the book as fresh virtual rungs; the rest stay. */
  function Reprice(l: seq<Order>, d: Direction, k: nat, x: real, ids: seq<OrderId>): (r: seq<Order>)
    requires k <= |l| && |ids| == |l|
    ensures |r| == |l|
    ensures forall i :: 0 <= i < k ==> r[i] == Order(Away(d, l[i].price, x), 0.0, true, d.IsLong(), ids[i])
    ensures forall i :: k <= i < |l| ==> r[i] == l[i]
  {
    seq(|l|, i requires 0 <= i < |l| =>
      if i < k then NewOrder(Away(d, l[i].price, x), 0.0, true, d.IsLong(), ids[i]) else l[i])
  }

  /**
   * The book moved into the ladder by `k` rungs (long shift-down, short
   * shift-up).  With k < N the k consumed rungs are re-priced N increments
   * further out as virtual rungs and rotated to the far end; with k >= N every
   * rung moves k increments out as a virtual rung.  The consumed rungs are
   * presumed filled or expired: nothing is cancelled or posted here.
   */
  function Advance(prev: seq<Order>, d: Direction, k: nat, inc: real, ids: seq<OrderId>): (r: Step)
    requires 1 <= k && |ids| == |prev|
    ensures |r.ladder| == |prev| && r.cancels == [] && r.posts == []
    ensures k < |prev| ==> forall i :: 0 <= i < |prev| - k ==> r.ladder[i] == prev[i + k]
    ensures k < |prev| ==> forall i :: |prev| - k <= i < |prev| ==>
      r.ladder[i] == Order(Away(d, prev[i + k - |prev|].price, |prev| as real * inc), 0.0, true, d.IsLong(), ids[i + k - |prev|])
    ensures k >= |prev| ==> forall i :: 0 <= i < |prev| ==>
      r.ladder[i] == Order(Away(d, prev[i].price, k as real * inc), 0.0, true, d.IsLong(), ids[i])
  {
    var n := |prev|;
    if k >= n then Step(Reprice(prev, d, n, k as real * inc, ids), [], [])
    else Step(RotateLeft(Reprice(prev, d, k, n as real * inc, ids), k), [], [])
  }

  /**
   * The book moved away from the ladder by `k` rungs (long shift-up, short
   * shift-down).  With k < N the ladder rotates right by k and the k rungs
   * that wrapped to the front are re-priced N increments nearer the book as
   * virtual rungs; with k >= N every rung moves k increments nearer.  Every
   * re-priced rung is cancelled.
   */
  function Retreat(prev: seq<Order>, d: Direction, k: nat, inc: real, ids: seq<OrderId>): (r: Step)
    requires 1 <= k && |ids| == |prev|
    ensures |r.ladder| == |prev| && r.posts == []
    ensures k < |prev| ==> r.cancels == prev[|prev| - k..]
    ensures k < |prev| ==> forall i :: k <= i < |prev| ==> r.ladder[i] == prev[i - k]
    ensures k < |prev| ==> forall i :: 0 <= i < k ==>
      r.ladder[i] == Order(Away(d, prev[|prev| - k + i].price, -(|prev| as real * inc)), 0.0, true, d.IsLong(), ids[i])
    ensures k >= |prev| ==> r.cancels == prev
    ensures k >= |prev| ==> forall i :: 0 <= i < |prev| ==>
      r.ladder[i] == Order(Away(d, prev[i].price, -(k as real * inc)), 0.0, true, d.IsLong(), ids[i])
  {
    var n := |prev|;
    if k >= n then Step(Reprice(prev, d, n, -(k as real * inc), ids), prev, [])
    else
      var rotated := RotateRight(prev, k);
      assert rotated[..k] == prev[n - k..];
      Step(Reprice(rotated, d, k, -(n as real * inc), ids), rotated[..k], [])
  }

  function Prices(l: seq<Order>): (ps: seq<real>)
    ensures |ps| == |l| && forall i :: 0 <= i < |l| ==> ps[i] == l[i].price
  {
    seq(|l|, i requires 0 <= i < |l| => l[i].price)
  }

  /**
   * A long side at 100, 99, 98, 97, 96 with increment 1 shifted down by 3:
   * the three consumed rungs are re-priced 5 lower, to 95, 94, 93, and
   * rotated to the far end.  The side becomes 97, 96, 95, 94, 93, with the
   * three new rungs virtual.
   */
  lemma ShiftDownExample(l: seq<Order>, ids: seq<OrderId>)
    requires |l| == 5 && |ids| == 5 && Prices(l) == [100.0, 99.0, 98.0, 97.0, 96.0]
    ensures var r := Advance(l, Long, 3, 1.0, ids).ladder;
      && Prices(r) == [97.0, 96.0, 95.0, 94.0, 93.0]
      && r[0] == l[3] && r[1] == l[4]
      && !r[2].IsReal() && !r[3].IsReal() && !r[4].IsReal()
  {
    assert l[0].price == 100.0 && l[1].price == 99.0 && l[2].price == 98.0;
    assert l[3].price == 97.0 && l[4].price == 96.0;
  }

  /** An advance by k keeps the progression and moves its origin k increments out. */
  lemma AdvanceProgression(prev: seq<Order>, d: Direction, k: nat, inc: real, ids: seq<OrderId>, p0: real)
    requires 1 <= k && |ids| == |prev|
    requires ProgressionFrom(prev, d, p0, inc)
    ensures ProgressionFrom(Advance(prev, d, k, inc, ids).ladder, d, Away(d, p0, k as real * inc), inc)
  {
    forall i | 0 <= i < |prev|
      ensures Advance(prev, d, k, inc, ids).ladder[i].price == RungPrice(d, Away(d, p0, k as real * inc), inc, i)
    {
      AdvanceRung(prev, d, k, inc, ids, p0, i);
    }
  }

  lemma AdvanceRung(prev: seq<Order>, d: Direction, k: nat, inc: real, ids: seq<OrderId>, p0: real, i: nat)
    requires 1 <= k && |ids| == |prev| && i < |prev|
    requires ProgressionFrom(prev, d, p0, inc)
    ensures Advance(prev, d, k, inc, ids).ladder[i].price == RungPrice(d, Away(d, p0, k as real * inc), inc, i)
  {
    var n := |prev|;
    var l := Advance(prev, d, k, inc, ids).ladder;
    if k >= n {
      assert l[i].price == Away(d, RungPrice(d, p0, inc, i), k as real * inc);
      ShiftedRung(d, p0, inc, i, k, i + k);
    } else if i < n - k {
      assert l[i].price == RungPrice(d, p0, inc, i + k);
    } else {
      assert l[i].price == Away(d, RungPrice(d, p0, inc, i + k - n), n as real * inc);
      ShiftedRung(d, p0, inc, i + k - n, n, i + k);
    }
    OriginOut(d, p0, inc, k, i);
  }

  /** Rung i from an origin moved k increments out is rung i + k from the old origin. */
  lemma OriginOut(d: Direction, p0: real, inc: real, k: int, i: int)
    ensures RungPrice(d, Away(d, p0, k as real * inc), inc, i) == RungPrice(d, p0, inc, i + k)
  {
    Spread(i, k, inc);
  }

  /** A retreat by k keeps the progression and moves its origin k increments nearer the book. */
  lemma RetreatProgression(prev: seq<Order>, d: Direction, k: nat, inc: real, ids: seq<OrderId>, p0: real)
    requires 1 <= k && |ids| == |prev|
    requires ProgressionFrom(prev, d, p0, inc)
    ensures ProgressionFrom(Retreat(prev, d, k, inc, ids).ladder, d, Away(d, p0, -(k as real * inc)), inc)
  {
    forall i | 0 <= i < |prev|
      ensures Retreat(prev, d, k, inc, ids).ladder[i].price == RungPrice(d, Away(d, p0, -(k as real * inc)), inc, i)
    {
      RetreatRung(prev, d, k, inc, ids, p0, i);
    }
  }

  lemma RetreatRung(prev: seq<Order>, d: Direction, k: nat, inc: real, ids: seq<OrderId>, p0: real, i: nat)
    requires 1 <= k && |ids| == |prev| && i < |prev|
    requires ProgressionFrom(prev, d, p0, inc)
    ensures Retreat(prev, d, k, inc, ids).ladder[i].price == RungPrice(d, Away(d, p0, -(k as real * inc)), inc, i)
  {
    var n := |prev|;
    var l := Retreat(prev, d, k, inc, ids).ladder;
    if k >= n {
      assert l[i].price == Away(d, RungPrice(d, p0, inc, i), -(k as real * inc));
      ShiftedRung(d, p0, inc, i, k, i + k);
    } else if i < k {
      assert l[i].price == Away(d, RungPrice(d, p0, inc, n - k + i), -(n as real * inc));
      ShiftedRung(d, p0, inc, n - k + i, n, 2 * n - k + i);
    } else {
      assert l[i].price == RungPrice(d, p0, inc, i - k);
    }
    ShiftedRung(d, p0, inc, i - k, k, i);
  }

  /**
   * Rung a moved m increments out is rung a + m.  Stated from both ends of
   * the identity so that either can be matched.
   */
  lemma ShiftedRung(d: Direction, p0: real, inc: real, a: int, m: int, b: int)
    requires b == a + m
    ensures Away(d, RungPrice(d, p0, inc, a), m as real * inc) == RungPrice(d, p0, inc, b)
    ensures RungPrice(d, p0, inc, a) == RungPrice(d, Away(d, p0, -(m as real * inc)), inc, b)
    ensures Away(d, RungPrice(d, p0, inc, a), -(m as real * inc)) == RungPrice(d, p0, inc, a - m)
  {
    Spread(a, m, inc);
    Spread(a - m, m, inc);
  }

  // ---------------------------------------------------------------- quantity diff

  /** The rungs among the first n whose quantity differs from the distribution, in ladder order. */
  function ChangedIndices(prev: seq<Order>, q: seq<real>, n: nat): (idx: seq<nat>)
    requires n <= |prev| && |q| == |prev|
    ensures forall j :: 0 <= j < |idx| ==> idx[j] < n && prev[idx[j]].quantity != q[idx[j]]
    ensures forall i :: 0 <= i < n && prev[i].quantity != q[i] ==> i in idx
    ensures forall j, j' :: 0 <= j < j' < |idx| ==> idx[j] < idx[j']
  {
    if n == 0 then []
    else ChangedIndices(prev, q, n - 1) + (if prev[n - 1].quantity != q[n - 1] then [n - 1] else [])
  }

  /**
   * The quantity diff: a rung whose quantity differs from the distribution is
   * cancelled and replaced by a fresh rung at the same price with the new
   * quantity, which is posted; other rungs stay as they are.
   */
  function QuantityDiff(prev: seq<Order>, d: Direction, q: seq<real>, ids: seq<OrderId>): (r: Step)
    requires |q| == |prev| && |ids| == |prev|
    ensures |r.ladder| == |prev|
    ensures forall i :: 0 <= i < |prev| ==> r.ladder[i].price == prev[i].price && r.ladder[i].quantity == q[i]
    ensures forall i :: 0 <= i < |prev| && prev[i].quantity == q[i] ==> r.ladder[i] == prev[i]
    ensures forall i :: 0 <= i < |prev| && prev[i].quantity != q[i] ==>
      IsRung(r.ladder[i], d) && r.ladder[i].id == ids[i]
    ensures var idx := ChangedIndices(prev, q, |prev|);
      && |r.cancels| == |idx| && |r.posts| == |idx|
      && (forall j :: 0 <= j < |idx| ==> r.cancels[j] == prev[idx[j]] && r.posts[j] == r.ladder[idx[j]])
  {
    var l := seq(|prev|, i requires 0 <= i < |prev| =>
      if prev[i].quantity != q[i] then NewOrder(prev[i].price, q[i], true, d.IsLong(), ids[i]) else prev[i]);
    var idx := ChangedIndices(prev, q, |prev|);
    Step(l, seq(|idx|, j requires 0 <= j < |idx| => prev[idx[j]]), seq(|idx|, j requires 0 <= j < |idx| => l[idx[j]]))
  }

  lemma NoChanges(prev: seq<Order>, q: seq<real>, n: nat)
    requires n <= |prev| && |q| == |prev|
    requires forall i :: 0 <= i < n ==> prev[i].quantity == q[i]
    ensures ChangedIndices(prev, q, n) == []
  {
    if n > 0 {
      NoChanges(prev, q, n - 1);
    }
  }

  /** The diff keeps every price, so it keeps the progression. */
  lemma DiffKeepsProgression(prev: seq<Order>, d: Direction, q: seq<real>, ids: seq<OrderId>, p0: real, inc: real)
    requires |q| == |prev| && |ids| == |prev|
    requires ProgressionFrom(prev, d, p0, inc)
    ensures ProgressionFrom(QuantityDiff(prev, d, q, ids).ladder, d, p0, inc)
  {
  }

  /** The diff is idempotent: once the side carries the distribution, a second diff changes nothing. */
  lemma QuantityDiffSettles(prev: seq<Order>, d: Direction, q: seq<real>, ids: seq<OrderId>, ids2: seq<OrderId>)
    requires |q| == |prev| && |ids| == |prev| && |ids2| == |prev|
    ensures var once := QuantityDiff(prev, d, q, ids).ladder;
      QuantityDiff(once, d, q, ids2) == Step(once, [], [])
  {
    var once := QuantityDiff(prev, d, q, ids).ladder;
    var twice := QuantityDiff(once, d, q, ids2);
    NoChanges(once, q, |once|);
    assert twice.ladder == once;
  }

  // ---------------------------------------------------------------- shift counts

  /** The least integer not below a real. */
  function Ceil(x: real): (c: int)
    ensures c as real >= x && (c - 1) as real < x
  {
    -((-x).Floor)
  }

  lemma MulMono(a: real, b: real, inc: real)
    requires inc > 0.0 && a <= b
    ensures a * inc <= b * inc
  {
  }

  lemma MulStrict(a: real, b: real, inc: real)
    requires inc > 0.0 && a < b
    ensures a * inc < b * inc
  {
  }

  /** Moving a price `x` out lowers its gap past the book by exactly `x`. */
  lemma GapAway(d: Direction, p: real, x: real, book: real)
    ensures Gap(d, Away(d, p, x), book) == Gap(d, p, book) - x
  {
  }

  /** Crossing the book is monotone along the rungs: nearer rungs cross whenever farther ones do. */
  lemma CrossingMonotone(d: Direction, p: real, book: real, inc: real, a: int, b: int)
    requires inc > 0.0 && a <= b
    requires Crosses(d, RungPrice(d, p, inc, b), book)
    ensures Crosses(d, RungPrice(d, p, inc, a), book)
  {
    MulMono(a as real, b as real, inc);
    GapAway(d, p, a as real * inc, book);
    GapAway(d, p, b as real * inc, book);
  }

  /** One more step of `inc` out from rung n is rung n + 1, and one step in is rung n - 1. */
  lemma StepOut(d: Direction, p: real, n: int, inc: real)
    ensures Away(d, RungPrice(d, p, inc, n), inc) == RungPrice(d, p, inc, n + 1)
    ensures Away(d, RungPrice(d, p, inc, n), -inc) == RungPrice(d, p, inc, n - 1)
  {
    Spread(n, 1, inc);
    Spread(n - 1, 1, inc);
  }

  /** The recovery count in closed form, for a front rung that crosses the book by `g > 0`. */
  lemma CeilCount(d: Direction, p: real, book: real, inc: real)
    requires inc > 0.0 && Gap(d, p, book) > 0.0
    ensures var c := Ceil(Gap(d, p, book) / inc);
      c >= 1 && !Crosses(d, RungPrice(d, p, inc, c), book) && Crosses(d, RungPrice(d, p, inc, c - 1), book)
  {
    var g := Gap(d, p, book);
    var c := Ceil(g / inc);
    CeilSteps(g, inc);
    GapAway(d, p, c as real * inc, book);
    GapAway(d, p, (c - 1) as real * inc, book);
    assert RungPrice(d, p, inc, c) == Away(d, p, c as real * inc);
    assert RungPrice(d, p, inc, c - 1) == Away(d, p, (c - 1) as real * inc);
  }

  /** ceil(g / inc) whole steps of `inc` cover g > 0, one fewer does not. */
  lemma CeilSteps(g: real, inc: real)
    requires inc > 0.0 && g > 0.0
    ensures var c := Ceil(g / inc);
      c >= 1 && (c - 1) as real * inc < g <= c as real * inc
  {
    var x := g / inc;
    var c := Ceil(x);
    DivBack(g, inc);
    DivPositive(g, inc);
    MulMono(x, c as real, inc);
    MulStrict((c - 1) as real, x, inc);
  }

  lemma DivPositive(g: real, inc: real)
    requires inc > 0.0 && g > 0.0
    ensures g / inc > 0.0
  {
  }

  /** The widening count in closed form, for a front rung that does not cross the book. */
  lemma FloorCount(d: Direction, p: real, book: real, inc: real)
    requires inc > 0.0 && Gap(d, p, book) <= 0.0
    ensures var f := (-Gap(d, p, book) / inc).Floor;
      f >= 0 && Crosses(d, RungPrice(d, p, inc, -(f + 1)), book) && !Crosses(d, RungPrice(d, p, inc, -f), book)
  {
    var g := Gap(d, p, book);
    var f := (-g / inc).Floor;
    FloorSteps(-g, inc);
    GapAway(d, p, -((f + 1) as real * inc), book);
    GapAway(d, p, -(f as real * inc), book);
    assert RungPrice(d, p, inc, -(f + 1)) == Away(d, p, -((f + 1) as real * inc));
    assert RungPrice(d, p, inc, -f) == Away(d, p, -(f as real * inc));
  }

  /** floor(y / inc) whole steps of `inc` fit in y >= 0, one more does not. */
  lemma FloorSteps(y: real, inc: real)
    requires inc > 0.0 && y >= 0.0
    ensures var f := (y / inc).Floor;
      f >= 0 && f as real * inc <= y < (f + 1) as real * inc
  {
    var x := y / inc;
    var f := x.Floor;
    DivBack(y, inc);
    StepLo(f as real, x, y, inc);
    StepUp(f as real, x, y, inc);
    Spread(f, 1, inc);
  }

  lemma DivBack(y: real, inc: real)
    requires inc > 0.0
    ensures (y / inc) * inc == y
  {
  }

  lemma StepLo(fr: real, x: real, y: real, inc: real)
    requires inc > 0.0 && fr <= x && x * inc == y
    ensures fr * inc <= y
  {
  }

  lemma StepUp(fr: real, x: real, y: real, inc: real)
    requires inc > 0.0 && x < fr + 1.0 && x * inc == y
    ensures y < fr * inc + inc
  {
    MulStrict(x, fr + 1.0, inc);
    var hi := (fr + 1.0) * inc;
    assert y < hi;
    assert hi == fr * inc + inc;
  }

  /**
   * The shift-count recovery: the number of increments the front rung must
   * move out before it stops crossing the book.
   */
  function RecoverCount(d: Direction, p: real, book: real, inc: real): (n: nat)
    requires inc > 0.0
    ensures !Crosses(d, RungPrice(d, p, inc, n), book)
    ensures n > 0 ==> Crosses(d, RungPrice(d, p, inc, n - 1), book)
  {
    if Gap(d, p, book) <= 0.0 then
      assert RungPrice(d, p, inc, 0) == p;
      0
    else
      CeilCount(d, p, book, inc);
      Ceil(Gap(d, p, book) / inc)
  }

  /**
   * The widening check: the number of increments the front rung may move
   * nearer the book while still not crossing it.
   */
  function WidenCount(d: Direction, p: real, book: real, inc: real): (n: nat)
    requires inc > 0.0
    ensures Crosses(d, RungPrice(d, p, inc, -(n + 1)), book)
    ensures n > 0 ==> !Crosses(d, RungPrice(d, p, inc, -(n as int)), book)
  {
    if Gap(d, p, book) > 0.0 then
      CrossingMonotone(d, p, book, inc, -1, 0);
      assert RungPrice(d, p, inc, 0) == p;
      0
    else
      FloorCount(d, p, book, inc);
      (-Gap(d, p, book) / inc).Floor
  }

  /** The recovery loop of `trader_loop`, stepping the probe price out by the last increment. */
  method RecoverShift(d: Direction, p: real, book: real, inc: real) returns (n: nat)
    requires inc > 0.0
    ensures n == RecoverCount(d, p, book, inc)
  {
    ghost var m := RecoverCount(d, p, book, inc);
    n := 0;
    var target := p;
    assert target == RungPrice(d, p, inc, 0);
    while Crosses(d, target, book)
      invariant target == RungPrice(d, p, inc, n)
      invariant n <= m
      invariant n > 0 ==> Crosses(d, RungPrice(d, p, inc, n - 1), book)
      decreases m - n
    {
      if n >= m {
        CrossingMonotone(d, p, book, inc, m, n);
        assert false;
      }
      StepOut(d, p, n, inc);
      n := n + 1;
      target := Away(d, target, inc);
    }
    if n < m {
      CrossingMonotone(d, p, book, inc, n, m - 1);
      assert false;
    }
  }

  /** The widening loop of `trader_loop`, stepping the probe price in by the last increment. */
  method WidenShift(d: Direction, p: real, book: real, inc: real) returns (n: nat)
    requires inc > 0.0
    ensures n == WidenCount(d, p, book, inc)
  {
    ghost var m := WidenCount(d, p, book, inc);
    n := 0;
    StepOut(d, p, 0, inc);
    assert RungPrice(d, p, inc, 0) == p;
    var target := Away(d, p, -inc);
    while !Crosses(d, target, book)
      invariant target == RungPrice(d, p, inc, -(n + 1))
      invariant n <= m
      invariant n > 0 ==> !Crosses(d, RungPrice(d, p, inc, -(n as int)), book)
      decreases m - n
    {
      if n >= m {
        CrossingMonotone(d, p, book, inc, -(n + 1), -(m + 1));
        assert false;
      }
      StepOut(d, p, -(n + 1), inc);
      n := n + 1;
      target := Away(d, target, -inc);
    }
    if n < m {
      CrossingMonotone(d, p, book, inc, -m, -(n + 1));
      assert false;
    }
  }
}

=== FILE: orders.dfy ===
/**
 * The order value object of src/order_manager.rs: a price, a quantity, an
 * open/close flag, a long/short flag and a client order id.  Orders are
 * immutable values; "mutating" one yields a new value.
 */
module Orders {

  /** Exclusive upper bound of the random client order id (`gen_range(0..4294967295)`). */
  const ID_BOUND: int := 4294967295

  type OrderId = x: int | 0 <= x < ID_BOUND

  /** The two directions of the ladder: longs rest below the book, shorts above it. */
  datatype Direction = Long | Short {
    predicate IsLong() { this == Long }
  }

  datatype Order = Order(price: real, quantity: real, isOpen: bool, isLong: bool, id: OrderId) {

    /** A rung with quantity 0 is virtual: it keeps a price slot but is never sent. */
    predicate IsReal() { quantity > 0.0 }

    /** Exchange side: an open long or a close short buys, the other two sell. */
    function Side(): string { if isOpen != isLong then "SELL" else "BUY" }

    function PositionSide(): string { if isLong then "LONG" else "SHORT" }
  }

  /**
   * `Order::new`.  The random id is a parameter here; every other field is
   * stored as given.
   */
  function NewOrder(price: real, quantity: real, isOpen: bool, isLong: bool, id: OrderId): (o: Order)
    ensures o.price == price && o.quantity == quantity
    ensures o.isOpen == isOpen && o.isLong == isLong && o.id == id
    ensures o.IsReal() <==> quantity > 0.0
  {
    Order(price, quantity, isOpen, isLong, id)
  }

  /** `set_quantity`: only the quantity changes. */
  function SetQuantity(o: Order, q: real): (r: Order)
    ensures r.quantity == q
    ensures r.price == o.price && r.isOpen == o.isOpen && r.isLong == o.isLong && r.id == o.id
    ensures r.IsReal() <==> q > 0.0
  {
    o.(quantity := q)
  }

  /** Setting the quantity back to the old value gives the original order. */
  lemma SetQuantityRestores(o: Order, q: real)
    ensures SetQuantity(SetQuantity(o, q), o.quantity) == o
  {
  }

  /**
   * The fields of one order on the wire.  Price and quantity are kept as
   * numbers: their decimal text formatting is not modelled.
   */
  datatype WireOrder = WireOrder(
    side: string, positionSide: string, orderType: string, price: real,
    timeInForce: string, quantity: real, clientOrderId: OrderId)

  /** `to_url_string` / `to_single_url_string`, field by field. */
  function ToWire(o: Order): (w: WireOrder)
    ensures w.side == "SELL" <==> o.isOpen != o.isLong
    ensures w.side == "BUY" || w.side == "SELL"
    ensures w.positionSide == "LONG" <==> o.isLong
    ensures w.positionSide == "LONG" || w.positionSide == "SHORT"
    ensures w.orderType == "LIMIT" && w.timeInForce == "GTX"
    ensures w.price == o.price && w.quantity == o.quantity && w.clientOrderId == o.id
  {
    WireOrder(o.Side(), o.PositionSide(), "LIMIT", o.price, "GTX", o.quantity, o.id)
  }

  /**
   * The four legs: opening a long buys and closing it sells; opening a short
   * sells and closing it buys.  The open and the close of one direction always
   * trade on opposite sides and on the same position side.
   */
  lemma SideTable(p: real, q: real, id: OrderId)
    ensures ToWire(Order(p, q, true, true, id)).side == "BUY"
    ensures ToWire(Order(p, q, false, true, id)).side == "SELL"
    ensures ToWire(Order(p, q, true, false, id)).side == "SELL"
    ensures ToWire(Order(p, q, false, false, id)).side == "BUY"
    ensures forall isLong: bool ::
      ToWire(Order(p, q, true, isLong, id)).side != ToWire(Order(p, q, false, isLong, id)).side
  {
    forall isLong: bool
      ensures ToWire(Order(p, q, true, isLong, id)).side != ToWire(Order(p, q, false, isLong, id)).side
    {
      assert "BUY"[0] != "SELL"[0];
    }
  }
}

=== FILE: reconciler.dfy ===
/**
 * The ladder reconciler of src/main.rs: the initial ladder, one side's
 * reaction to a tick (shift count, rebuild or shift, quantity diff), the close
 * order repost, the overflow recovery and one iteration of `trader_loop`.
 *
 * The source writes the long and the short side out twice; here one function
 * over `Direction` covers both.  The long side watches the top bid and moves
 * down (away) on fills, the short side watches the top ask and moves up.
 */
module Reconciler {
  import opened Orders
  import opened TradingState
  import opened Distributor
  import opened Ladder

  function Quantities(l: seq<Order>): (q: seq<real>)
    ensures |q| == |l| && forall i :: 0 <= i < |l| ==> q[i] == l[i].quantity
  {
    seq(|l|, i requires 0 <= i < |l| => l[i].quantity)
  }

  /** The quantities the side should carry for a given open pool. */
  function Target(cfg: Config, n: nat, pool: real): (q: seq<real>)
    ensures |q| == n
  {
    Distribute(n, cfg.orderQuantity, pool, cfg.quantityDecimalHalf)
  }

  // ---------------------------------------------------------------- one side

  /** One side after a tick, with what it cancels and posts. */
  datatype SideResult = SideResult(ladder: seq<Order>, lastInc: real, cancels: seq<Order>, posts: seq<Order>)

  /** How a side moves in one tick: not at all, out by k rungs, or in by k rungs. */
  datatype Move = Stay | Out(k: nat) | In(k: nat)

  /**
   * The shift count of a side.  Fill and expiry events move the side out by
   * their number.  Without events, a virtual front rung that crosses the
   * book is stepped out by the recovery loop; otherwise the widening loop
   * counts how far the side may move in.  Both loops step by the last
   * increment.
   */
  function SideShift(d: Direction, ladder: seq<Order>, events: nat, book: real, lastInc: real): (m: Move)
    requires |ladder| >= 1 && lastInc > 0.0
    ensures events > 0 ==> m == Out(events)
    ensures m.Out? && events == 0 ==>
      && !ladder[0].IsReal() && Crosses(d, ladder[0].price, book)
      && !Crosses(d, RungPrice(d, ladder[0].price, lastInc, m.k), book)
      && Crosses(d, RungPrice(d, ladder[0].price, lastInc, m.k - 1), book)
    ensures m.In? ==>
      && events == 0 && m.k >= 1
      && !Crosses(d, RungPrice(d, ladder[0].price, lastInc, -(m.k as int)), book)
      && Crosses(d, RungPrice(d, ladder[0].price, lastInc, -(m.k + 1)), book)
    ensures m == Stay ==>
      && events == 0
      && (ladder[0].IsReal() || !Crosses(d, ladder[0].price, book))
      && Crosses(d, RungPrice(d, ladder[0].price, lastInc, -1), book)
  {
    var p := ladder[0].price;
    var shift := if events == 0 && !ladder[0].IsReal() then RecoverCount(d, p, book, lastInc) else events;
    RungZero(d, p, lastInc);
    if shift > 0 then Out(shift)
    else
      var w := WidenCount(d, p, book, lastInc);
      if w > 0 then In(w) else Stay
  }

  lemma RungZero(d: Direction, p: real, inc: real)
    ensures RungPrice(d, p, inc, 0) == p
  {
  }

  /**
   * Move a side by k >= 1 rungs.  When the increment changed since the last
   * move, the side is rebuilt from the book with the new increment;
   * otherwise it is shifted (out or in) by the last increment and the
   * quantity diff brings it to the distribution of the pool.
   */
  function SideMove(d: Direction, ladder: seq<Order>, k: nat, out: bool, book: real,
                    lastInc: real, newInc: real, pool: real, cfg: Config,
                    idsA: seq<OrderId>, idsB: seq<OrderId>): (r: SideResult)
    requires 1 <= k && |idsA| == |ladder| && |idsB| == |ladder|
    ensures |r.ladder| == |ladder| && r.lastInc == newInc
    ensures Quantities(r.ladder) == Target(cfg, |ladder|, pool)
    ensures lastInc != newInc ==>
      r.cancels == ladder && r.posts == r.ladder && ProgressionFrom(r.ladder, d, book, newInc)
    ensures AllRungs(ladder, d) ==> AllRungs(r.ladder, d)
  {
    var q := Target(cfg, |ladder|, pool);
    if lastInc != newInc then
      var st := Rebuild(ladder, d, book, newInc, q, idsA);
      SideResult(st.ladder, newInc, st.cancels, st.posts)
    else
      var st := if out then Advance(ladder, d, k, lastInc, idsA) else Retreat(ladder, d, k, lastInc, idsA);
      var diff := QuantityDiff(st.ladder, d, q, idsB);
      SideResult(diff.ladder, lastInc, st.cancels + diff.cancels, diff.posts)
  }

  /** One side of one `trader_loop` iteration (src/main.rs, "Open Longs" / "Open Shorts"). */
  function SideTick(d: Direction, ladder: seq<Order>, events: nat, book: real,
                    lastInc: real, newInc: real, pool: real, cfg: Config,
                    idsA: seq<OrderId>, idsB: seq<OrderId>): (r: SideResult)
    requires |ladder| >= 1 && lastInc > 0.0 && |idsA| == |ladder| && |idsB| == |ladder|
    ensures |r.ladder| == |ladder|
    ensures SideShift(d, ladder, events, book, lastInc) == Stay ==> r == SideResult(ladder, lastInc, [], [])
    ensures SideShift(d, ladder, events, book, lastInc) != Stay ==>
      r.lastInc == newInc && Quantities(r.ladder) == Target(cfg, |ladder|, pool)
  {
    match SideShift(d, ladder, events, book, lastInc)
    case Stay => SideResult(ladder, lastInc, [], [])
    case Out(k) => SideMove(d, ladder, k, true, book, lastInc, newInc, pool, cfg, idsA, idsB)
    case In(k) => SideMove(d, ladder, k, false, book, lastInc, newInc, pool, cfg, idsA, idsB)
  }

  /** The side invariant: all open rungs of the side, spaced by the recorded increment. */
  predicate SideValid(l: seq<Order>, d: Direction, inc: real) {
    |l| >= 1 && AllRungs(l, d) && ProgressionFrom(l, d, l[0].price, inc)
  }

  /** A tick keeps the side a ladder of open rungs in arithmetic progression of its recorded increment. */
  lemma SideTickValid(d: Direction, ladder: seq<Order>, events: nat, book: real,
                      lastInc: real, newInc: real, pool: real, cfg: Config,
                      idsA: seq<OrderId>, idsB: seq<OrderId>)
    requires lastInc > 0.0 && |idsA| == |ladder| && |idsB| == |ladder|
    requires SideValid(ladder, d, lastInc)
    ensures SideValid(SideTick(d, ladder, events, book, lastInc, newInc, pool, cfg, idsA, idsB).ladder, d,
                      SideTick(d, ladder, events, book, lastInc, newInc, pool, cfg, idsA, idsB).lastInc)
  {
    var m := SideShift(d, ladder, events, book, lastInc);
    if m != Stay {
      var front := MovedFront(d, ladder[0].price, m, lastInc);
      var r := SideTick(d, ladder, events, book, lastInc, newInc, pool, cfg, idsA, idsB);
      if lastInc != newInc {
        RungZero(d, book, newInc);
      } else if m.Out? {
        AdvanceFront(d, ladder, m.k, lastInc, idsA, idsB, Target(cfg, |ladder|, pool));
        RungZero(d, front, lastInc);
      } else {
        RetreatFront(d, ladder, m.k, lastInc, idsA, idsB, Target(cfg, |ladder|, pool));
        RungZero(d, front, lastInc);
      }
    }
  }

  /** Where the front rung lands when the side is shifted (not rebuilt) by m. */
  function MovedFront(d: Direction, p0: real, m: Move, inc: real): real
    requires m != Stay
  {
    match m
    case Out(k) => RungPrice(d, p0, inc, k)
    case In(k) => RungPrice(d, p0, inc, -(k as int))
  }

  /** Shifting out and diffing keeps the progression, with rung 0 at old rung k. */
  lemma AdvanceFront(d: Direction, ladder: seq<Order>, k: nat, inc: real,
                     idsA: seq<OrderId>, idsB: seq<OrderId>, q: seq<real>)
    requires 1 <= k && |idsA| == |ladder| && |idsB| == |ladder| && |q| == |ladder|
    requires |ladder| >= 1 && ProgressionFrom(ladder, d, ladder[0].price, inc)
    ensures ProgressionFrom(QuantityDiff(Advance(ladder, d, k, inc, idsA).ladder, d, q, idsB).ladder,
                            d, RungPrice(d, ladder[0].price, inc, k), inc)
  {
    var p0 := ladder[0].price;
    AdvanceProgression(ladder, d, k, inc, idsA, p0);
    ShiftedRung(d, p0, inc, 0, k, k);
    RungZero(d, p0, inc);
    DiffKeepsProgression(Advance(ladder, d, k, inc, idsA).ladder, d, q, idsB, RungPrice(d, p0, inc, k), inc);
  }

  /** Shifting in and diffing keeps the progression, with rung 0 at old rung -k. */
  lemma RetreatFront(d: Direction, ladder: seq<Order>, k: nat, inc: real,
                     idsA: seq<OrderId>, idsB: seq<OrderId>, q: seq<real>)
    requires 1 <= k && |idsA| == |ladder| && |idsB| == |ladder| && |q| == |ladder|
    requires |ladder| >= 1 && ProgressionFrom(ladder, d, ladder[0].price, inc)
    ensures ProgressionFrom(QuantityDiff(Retreat(ladder, d, k, inc, idsA).ladder, d, q, idsB).ladder,
                            d, RungPrice(d, ladder[0].price, inc, -(k as int)), inc)
  {
    var p0 := ladder[0].price;
    RetreatProgression(ladder, d, k, inc, idsA, p0);
    ShiftedRung(d, p0, inc, 0, k, k);
    RungZero(d, p0, inc);
    DiffKeepsProgression(Retreat(ladder, d, k, inc, idsA).ladder, d, q, idsB, RungPrice(d, p0, inc, -(k as int)), inc);
  }

  /** Where rung 0 of a side is after a tick, by the kind of move. */
  function FrontAfter(d: Direction, ladder: seq<Order>, m: Move, book: real, lastInc: real, newInc: real): real
    requires |ladder| >= 1
  {
    if m == Stay then ladder[0].price
    else if lastInc != newInc then book
    else MovedFront(d, ladder[0].price, m, lastInc)
  }

  /** Where the front rung of a side ends up after one tick. */
  lemma SideTickFront(d: Direction, ladder: seq<Order>, events: nat, book: real,
                      lastInc: real, newInc: real, pool: real, cfg: Config,
                      idsA: seq<OrderId>, idsB: seq<OrderId>)
    requires lastInc > 0.0 && |idsA| == |ladder| && |idsB| == |ladder|
    requires SideValid(ladder, d, lastInc)
    ensures SideTick(d, ladder, events, book, lastInc, newInc, pool, cfg, idsA, idsB).ladder[0].price
         == FrontAfter(d, ladder, SideShift(d, ladder, events, book, lastInc), book, lastInc, newInc)
  {
    var m := SideShift(d, ladder, events, book, lastInc);
    if m != Stay {
      if lastInc != newInc {
        RungZero(d, book, newInc);
      } else if m.Out? {
        AdvanceFront(d, ladder, m.k, lastInc, idsA, idsB, Target(cfg, |ladder|, pool));
        RungZero(d, MovedFront(d, ladder[0].price, m, lastInc), lastInc);
      } else {
        RetreatFront(d, ladder, m.k, lastInc, idsA, idsB, Target(cfg, |ladder|, pool));
        RungZero(d, MovedFront(d, ladder[0].price, m, lastInc), lastInc);
      }
    }
  }

  /**
   * Without fill or expiry events the side ends snug against the book: one
   * increment nearer would cross it, and a virtual front rung no longer
   * crosses it.
   */
  lemma QuietTickSnug(d: Direction, ladder: seq<Order>, book: real,
                      lastInc: real, newInc: real, pool: real, cfg: Config,
                      idsA: seq<OrderId>, idsB: seq<OrderId>)
    requires lastInc > 0.0 && newInc > 0.0 && |idsA| == |ladder| && |idsB| == |ladder|
    requires SideValid(ladder, d, lastInc)
    ensures var r := SideTick(d, ladder, 0, book, lastInc, newInc, pool, cfg, idsA, idsB);
      && Crosses(d, Away(d, r.ladder[0].price, -r.lastInc), book)
      && (!ladder[0].IsReal() ==> !Crosses(d, r.ladder[0].price, book))
  {
    var m := SideShift(d, ladder, 0, book, lastInc);
    var r := SideTick(d, ladder, 0, book, lastInc, newInc, pool, cfg, idsA, idsB);
    SideTickFront(d, ladder, 0, book, lastInc, newInc, pool, cfg, idsA, idsB);
    SnugCore(d, ladder[0].price, ladder[0].IsReal(), m, book, lastInc, newInc, r.ladder[0].price, r.lastInc);
  }

  /** The arithmetic of QuietTickSnug, on the front price alone. */
  lemma SnugCore(d: Direction, p0: real, isReal: bool, m: Move, book: real,
                 lastInc: real, newInc: real, front: real, inc: real)
    requires lastInc > 0.0 && newInc > 0.0
    requires m.Out? ==> !isReal && !Crosses(d, RungPrice(d, p0, lastInc, m.k), book)
                        && Crosses(d, RungPrice(d, p0, lastInc, m.k - 1), book)
    requires m.In? ==> !Crosses(d, RungPrice(d, p0, lastInc, -(m.k as int)), book)
                       && Crosses(d, RungPrice(d, p0, lastInc, -(m.k + 1)), book)
    requires m == Stay ==> (isReal || !Crosses(d, p0, book)) && Crosses(d, RungPrice(d, p0, lastInc, -1), book)
    requires m == Stay ==> front == p0 && inc == lastInc
    requires m != Stay && lastInc != newInc ==> front == book && inc == newInc
    requires m != Stay && lastInc == newInc ==> front == MovedFront(d, p0, m, lastInc) && inc == lastInc
    ensures Crosses(d, Away(d, front, -inc), book)
    ensures !isReal ==> !Crosses(d, front, book)
  {
    if m == Stay {
      RungZero(d, p0, lastInc);
      StepOut(d, p0, 0, lastInc);
    } else if lastInc != newInc {
      GapAway(d, book, -newInc, book);
    } else if m.Out? {
      StepOut(d, p0, m.k, lastInc);
    } else {
      StepOut(d, p0, -(m.k as int), lastInc);
    }
  }

  /** Whenever the side moves, the quantities it carries add up to at most the open pool. */
  lemma SideTickWithinPool(d: Direction, ladder: seq<Order>, events: nat, book: real,
                           lastInc: real, newInc: real, pool: real, cfg: Config,
                           idsA: seq<OrderId>, idsB: seq<OrderId>)
    requires |ladder| >= 1 && lastInc > 0.0 && |idsA| == |ladder| && |idsB| == |ladder| && pool >= 0.0
    requires SideShift(d, ladder, events, book, lastInc) != Stay
    ensures Sum(Quantities(SideTick(d, ladder, events, book, lastInc, newInc, pool, cfg, idsA, idsB).ladder)) <= pool
  {
    DistributeWithinPool(|ladder|, cfg.orderQuantity, pool, cfg.quantityDecimalHalf);
  }

  /** The recorded increment changes only on a rebuild, which cancels the whole side and posts it afresh. */
  lemma IncrementChangesOnlyOnRebuild(d: Direction, ladder: seq<Order>, events: nat, book: real,
                                      lastInc: real, newInc: real, pool: real, cfg: Config,
                                      idsA: seq<OrderId>, idsB: seq<OrderId>)
    requires |ladder| >= 1 && lastInc > 0.0 && |idsA| == |ladder| && |idsB| == |ladder|
    ensures var r := SideTick(d, ladder, events, book, lastInc, newInc, pool, cfg, idsA, idsB);
      r.lastInc != lastInc ==>
        && r.lastInc == newInc && r.cancels == ladder && r.posts == r.ladder
        && ProgressionFrom(r.ladder, d, book, newInc)
  {
  }

  // ---------------------------------------------------------------- close orders

  function Abs(x: real): real {
    if x < 0.0 then -x else x
  }

  /** The close order has drifted: its quantity by more than 0.005 or its price by more than 5 from the target. */
  predicate CloseStale(o: Order, position: real, price: real) {
    Abs(position - o.quantity) > 0.005 || Abs(price - o.price) > 5.0
  }

  datatype CloseResult = CloseResult(order: Order, cancels: seq<Order>, posts: seq<Order>)

  /**
   * The close order of one side: replaced by a fresh close order for the
   * whole position at the close price when a close event was seen or when it
   * drifted.  The old order is cancelled only when no close event was seen:
   * a filled or expired close order is gone already.
   */
  function CloseRepost(prev: Order, repost: bool, position: real, price: real, d: Direction, id: OrderId): (r: CloseResult)
    ensures (r.posts != []) <==> (repost || CloseStale(prev, position, price))
    ensures (r.cancels != []) <==> (!repost && CloseStale(prev, position, price))
    ensures r.cancels != [] ==> r.cancels == [prev]
    ensures r.posts != [] ==> r.posts == [r.order] && r.order == Order(price, position, false, d.IsLong(), id)
    ensures r.posts == [] ==> r.order == prev
  {
    if repost || CloseStale(prev, position, price) then
      var o := NewOrder(price, position, false, d.IsLong(), id);
      CloseResult(o, if repost then [] else [prev], [o])
    else CloseResult(prev, [], [])
  }

  /**
   * After the repost step the close order is within tolerance of the target,
   * closes the right side, and a second step without a close event is quiet.
   */
  lemma CloseSettles(prev: Order, repost: bool, position: real, price: real, d: Direction, id: OrderId, id2: OrderId)
    requires !prev.isOpen && prev.isLong == d.IsLong()
    ensures var r := CloseRepost(prev, repost, position, price, d, id);
      && !CloseStale(r.order, position, price)
      && !r.order.isOpen && r.order.isLong == d.IsLong()
      && CloseRepost(r.order, false, position, price, d, id2) == CloseResult(r.order, [], [])
  {
  }
}

=== FILE: store.dfy ===
/**
 * The shared trading state of src/memory_manager.rs, as an immutable record.
 * Every mutating method of the source becomes a function from the old state
 * to the new one; every draining getter returns the value together with the
 * new state.  The lock around the state is not modelled: each function is one
 * critical section.
 */
module TradingState {
  import opened Orders

  /** The configuration fields the core reads (fixed after start-up). */
  datatype Config = Config(
    orderAmount: nat,          // ladder size N
    orderQuantity: real,       // per-rung target quantity
    maxPosition: real,
    increment: real,           // base spacing
    closeDiff: real,
    margin: real,              // distance of the first rung from the market price
    softPosition: real,
    acceleration: real,
    quantityDecimalHalf: real) // half a quantity step

  /** One of the eight event counters: open/close x long/short x filled/expired. */
  datatype Counter = Counter(isOpen: bool, isLong: bool, filled: bool)

  const OpenLongFilled := Counter(true, true, true)
  const OpenLongExpired := Counter(true, true, false)
  const CloseLongFilled := Counter(false, true, true)
  const CloseLongExpired := Counter(false, true, false)
  const OpenShortFilled := Counter(true, false, true)
  const OpenShortExpired := Counter(true, false, false)
  const CloseShortFilled := Counter(false, false, true)
  const CloseShortExpired := Counter(false, false, false)

  /** The counter values.  The source's u64 counters are unbounded here. */
  datatype Counters = Counters(
    openLongFilled: nat, openLongExpired: nat, closeLongFilled: nat, closeLongExpired: nat,
    openShortFilled: nat, openShortExpired: nat, closeShortFilled: nat, closeShortExpired: nat)
  {
    function Get(c: Counter): nat {
      match (c.isOpen, c.isLong, c.filled)
      case (true, true, true) => openLongFilled
      case (true, true, false) => openLongExpired
      case (false, true, true) => closeLongFilled
      case (false, true, false) => closeLongExpired
      case (true, false, true) => openShortFilled
      case (true, false, false) => openShortExpired
      case (false, false, true) => closeShortFilled
      case (false, false, false) => closeShortExpired
    }

    function Set(c: Counter, v: nat): (r: Counters)
      ensures r.Get(c) == v
      ensures forall c': Counter :: c' != c ==> r.Get(c') == Get(c')
    {
      match (c.isOpen, c.isLong, c.filled)
      case (true, true, true) => this.(openLongFilled := v)
      case (true, true, false) => this.(openLongExpired := v)
      case (false, true, true) => this.(closeLongFilled := v)
      case (false, true, false) => this.(closeLongExpired := v)
      case (true, false, true) => this.(openShortFilled := v)
      case (true, false, false) => this.(openShortExpired := v)
      case (false, false, true) => this.(closeShortFilled := v)
      case (false, false, false) => this.(closeShortExpired := v)
    }
  }

  const NoEvents := Counters(0, 0, 0, 0, 0, 0, 0, 0)

  datatype Store = Store(
    cfg: Config,
    closeOnly: bool,
    topAsk: real,
    topBid: real,
    currentLongs: real,
    currentShorts: real,
    longEntryPrice: real,
    shortEntryPrice: real,
    longUnPnl: real,
    shortUnPnl: real,
    counters: Counters,
    volume: real,
    balance: real,
    realizedProfit: real,
    commission: real,
    overflowCount: nat,
    overflow: bool,
    needRestart: bool,
    lastLongOpen: real,
    lastShortOpen: real)

  function Position(s: Store, d: Direction): real {
    if d.IsLong() then s.currentLongs else s.currentShorts
  }

  // ---------------------------------------------------------------- events

  /**
   * `get_open_long_filled` and its seven siblings: return the counter and
   * leave it at zero; nothing else changes.
   */
  function Drain(s: Store, c: Counter): (r: (nat, Store))
    ensures r.0 == s.counters.Get(c)
    ensures r.1.counters.Get(c) == 0
    ensures forall c': Counter :: c' != c ==> r.1.counters.Get(c') == s.counters.Get(c')
    ensures r.1.(counters := s.counters) == s
  {
    (s.counters.Get(c), s.(counters := s.counters.Set(c, 0)))
  }

  /**
   * `new_open_long_filled` and its three siblings: one more fill on the
   * counter, and the fill's volume, commission and realised profit added to
   * the accumulators.
   */
  function NewFilled(s: Store, isOpen: bool, isLong: bool, volume: real, commission: real, realizedProfit: real): (r: Store)
    ensures r.counters.Get(Counter(isOpen, isLong, true)) == s.counters.Get(Counter(isOpen, isLong, true)) + 1
    ensures forall c': Counter :: c' != Counter(isOpen, isLong, true) ==> r.counters.Get(c') == s.counters.Get(c')
    ensures r.volume == s.volume + volume
    ensures r.commission == s.commission + commission
    ensures r.realizedProfit == s.realizedProfit + realizedProfit
    ensures r.(counters := s.counters, volume := s.volume, commission := s.commission,
               realizedProfit := s.realizedProfit) == s
  {
    var c := Counter(isOpen, isLong, true);
    s.(counters := s.counters.Set(c, s.counters.Get(c) + 1),
       volume := s.volume + volume,
       commission := s.commission + commission,
       realizedProfit := s.realizedProfit + realizedProfit)
  }

  /** `new_open_long_expired` and its three siblings: one more expiry, nothing else. */
  function NewExpired(s: Store, isOpen: bool, isLong: bool): (r: Store)
    ensures r.counters.Get(Counter(isOpen, isLong, false)) == s.counters.Get(Counter(isOpen, isLong, false)) + 1
    ensures forall c': Counter :: c' != Counter(isOpen, isLong, false) ==> r.counters.Get(c') == s.counters.Get(c')
    ensures r.(counters := s.counters) == s
  {
    var c := Counter(isOpen, isLong, false);
    s.(counters := s.counters.Set(c, s.counters.Get(c) + 1))
  }

  /** Two drains with no event in between read (n, then 0) and the second changes nothing. */
  lemma DrainTwice(s: Store, c: Counter)
    ensures Drain(Drain(s, c).1, c).0 == 0
    ensures Drain(Drain(s, c).1, c).1 == Drain(s, c).1
  {
    var s1 := Drain(s, c).1;
    assert s1.counters.Set(c, 0) == s1.counters by {
      CountersExt(s1.counters.Set(c, 0), s1.counters);
    }
  }

  /** No event is lost: a drain after an event reads the old count plus one. */
  lemma DrainSeesEvent(s: Store, c: Counter, volume: real, commission: real, realizedProfit: real)
    ensures c.filled ==>
      Drain(NewFilled(s, c.isOpen, c.isLong, volume, commission, realizedProfit), c).0 == s.counters.Get(c) + 1
    ensures !c.filled ==> Drain(NewExpired(s, c.isOpen, c.isLong), c).0 == s.counters.Get(c) + 1
    ensures Drain(NewExpired(s, c.isOpen, c.isLong), Counter(c.isOpen, c.isLong, true)).0
         == s.counters.Get(Counter(c.isOpen, c.isLong, true))
  {
  }

  /** Two counter records that agree on every counter are equal. */
  lemma CountersExt(a: Counters, b: Counters)
    requires forall c: Counter :: a.Get(c) == b.Get(c)
    ensures a == b
  {
    assert a.Get(OpenLongFilled) == b.Get(OpenLongFilled);
    assert a.Get(OpenLongExpired) == b.Get(OpenLongExpired);
    assert a.Get(CloseLongFilled) == b.Get(CloseLongFilled);
    assert a.Get(CloseLongExpired) == b.Get(CloseLongExpired);
    assert a.Get(OpenShortFilled) == b.Get(OpenShortFilled);
    assert a.Get(OpenShortExpired) == b.Get(OpenShortExpired);
    assert a.Get(CloseShortFilled) == b.Get(CloseShortFilled);
    assert a.Get(CloseShortExpired) == b.Get(CloseShortExpired);
  }

  // ---------------------------------------------------------------- pools and prices

  /** `max_open_long` / `max_open_short`: the room left for opening, 0 in close-only mode. */
  function MaxOpen(s: Store, d: Direction): (r: real)
    ensures s.closeOnly ==> r == 0.0
    ensures !s.closeOnly ==> r + Position(s, d) == s.cfg.maxPosition
  {
    if s.closeOnly then 0.0 else s.cfg.maxPosition - Position(s, d)
  }

  /** `max_close_long` / `max_close_short`: a close order covers the whole position. */
  function MaxClose(s: Store, d: Direction): (r: real)
    ensures r == (if d == Long then s.currentLongs else s.currentShorts)
  {
    Position(s, d)
  }

  /** `activate_close_only`: sets the flag and nothing else. */
  function ActivateCloseOnly(s: Store): (r: Store)
    ensures r.closeOnly
    ensures forall d: Direction :: MaxOpen(r, d) == 0.0
    ensures r.(closeOnly := s.closeOnly) == s
  {
    s.(closeOnly := true)
  }

  function Max(a: real, b: real): real { if a >= b then a else b }
  function Min(a: real, b: real): real { if a <= b then a else b }

  /**
   * `get_close_prices`: a long is closed at the ask or at entry + close_diff,
   * whichever is higher; a short at the bid or at entry - close_diff,
   * whichever is lower.
   */
  function ClosePrice(s: Store, d: Direction): (r: real)
    ensures d == Long ==> r >= s.topAsk && r >= s.longEntryPrice + s.cfg.closeDiff
    ensures d == Long ==> r == s.topAsk || r == s.longEntryPrice + s.cfg.closeDiff
    ensures d == Short ==> r <= s.topBid && r <= s.shortEntryPrice - s.cfg.closeDiff
    ensures d == Short ==> r == s.topBid || r == s.shortEntryPrice - s.cfg.closeDiff
  {
    if d.IsLong() then Max(s.topAsk, s.longEntryPrice + s.cfg.closeDiff)
    else Min(s.topBid, s.shortEntryPrice - s.cfg.closeDiff)
  }

  // ---------------------------------------------------------------- snapshot

  /** What `get_updates` hands to the reconciler for one tick. */
  datatype Updates = Updates(
    topAsk: real, topBid: real,
    longShift: nat, shortShift: nat,
    closeLongRepost: bool, closeShortRepost: bool,
    currentLongs: real, currentShorts: real,
    longClosePrice: real, shortClosePrice: real,
    longIncrement: real, shortIncrement: real)

  /**
   * `close_*_expired > 0 || close_*_filled > 0`, evaluated as Rust does: the
   * right-hand drain only runs when the left-hand count was zero.
   */
  function DrainCloseShortCircuit(s: Store, isLong: bool): (r: (bool, Store))
  {
    var (expired, s1) := Drain(s, Counter(false, isLong, false));
    if expired > 0 then (true, s1)
    else
      var (filled, s2) := Drain(s1, Counter(false, isLong, true));
      (filled > 0, s2)
  }

  /**
   * `get_updates`, as written.  The increments (square root and rounding in
   * the source) are parameters.  The drains run in the order of the source's
   * tuple.
   */
  function GetUpdates(s: Store, longInc: real, shortInc: real): (r: (Updates, Store))
    ensures r.0.longShift == s.counters.openLongFilled + s.counters.openLongExpired
    ensures r.0.shortShift == s.counters.openShortFilled + s.counters.openShortExpired
    ensures r.0.closeLongRepost <==> s.counters.closeLongExpired > 0 || s.counters.closeLongFilled > 0
    ensures r.0.closeShortRepost <==> s.counters.closeShortExpired > 0 || s.counters.closeShortFilled > 0
    ensures r.0.topAsk == s.topAsk && r.0.topBid == s.topBid
    ensures r.0.currentLongs == s.currentLongs && r.0.currentShorts == s.currentShorts
    ensures r.0.longClosePrice == ClosePrice(s, Long) && r.0.shortClosePrice == ClosePrice(s, Short)
    ensures r.0.longIncrement == longInc && r.0.shortIncrement == shortInc
    ensures r.1.counters.openLongFilled == 0 && r.1.counters.openLongExpired == 0
    ensures r.1.counters.openShortFilled == 0 && r.1.counters.openShortExpired == 0
    ensures r.1.counters.closeLongExpired == 0 && r.1.counters.closeShortExpired == 0
    // the short-circuit: a close fill is drained only when there was no close expiry
    ensures r.1.counters.closeLongFilled == (if s.counters.closeLongExpired > 0 then s.counters.closeLongFilled else 0)
    ensures r.1.counters.closeShortFilled == (if s.counters.closeShortExpired > 0 then s.counters.closeShortFilled else 0)
    ensures r.1.(counters := s.counters) == s
  {
    var (olf, s1) := Drain(s, OpenLongFilled);
    var (ole, s2) := Drain(s1, OpenLongExpired);
    var (osf, s3) := Drain(s2, OpenShortFilled);
    var (ose, s4) := Drain(s3, OpenShortExpired);
    var (longRepost, s5) := DrainCloseShortCircuit(s4, true);
    var (shortRepost, s6) := DrainCloseShortCircuit(s5, false);
    (Updates(s.topAsk, s.topBid, olf + ole, osf + ose, longRepost, shortRepost,
             s6.currentLongs, s6.currentShorts, ClosePrice(s6, Long), ClosePrice(s6, Short),
             longInc, shortInc),
     s6)
  }

  /**
   * Corrected snapshot: both close counters are drained before they are
   * combined, so no close event survives into the next tick.
   */
  function GetUpdatesDrainBoth(s: Store, longInc: real, shortInc: real): (r: (Updates, Store))
    ensures r.0 == GetUpdates(s, longInc, shortInc).0
    ensures r.1.counters == NoEvents
    ensures r.1.(counters := s.counters) == s
  {
    var (u, s1) := GetUpdates(s, longInc, shortInc);
    var s2 := Drain(Drain(s1, CloseLongFilled).1, CloseShortFilled).1;
    assert s2.counters == NoEvents by {
      CountersExt(s2.counters, NoEvents);
    }
    (u, s2)
  }

  /**
   * With the corrected snapshot, a second tick with no event in between sees
   * no shift and no close repost.
   */
  lemma DrainBothSecondSnapshotQuiet(s: Store, li: real, si: real, li2: real, si2: real)
    ensures var u2 := GetUpdatesDrainBoth(GetUpdatesDrainBoth(s, li, si).1, li2, si2).0;
      u2.longShift == 0 && u2.shortShift == 0 && !u2.closeLongRepost && !u2.closeShortRepost
  {
  }

  /**
   * The as-written snapshot is not quiet: with one close-long expiry and one
   * close-long fill pending, the next snapshot, with no event in between,
   * reports a close-long repost again.
   */
  lemma ShortCircuitRepostsTwice(s: Store, li: real, si: real)
    requires s.counters == NoEvents.(closeLongExpired := 1, closeLongFilled := 1)
    ensures GetUpdates(s, li, si).0.closeLongRepost
    ensures GetUpdates(GetUpdates(s, li, si).1, li, si).0.closeLongRepost
  {
  }

  // ---------------------------------------------------------------- overflow and restart

  /** `start_overflow`: raise the flag and count one more overflow. */
  function StartOverflow(s: Store): (r: Store)
    ensures r.overflow && r.overflowCount == s.overflowCount + 1
    ensures r.(overflow := s.overflow, overflowCount := s.overflowCount) == s
  {
    s.(overflow := true, overflowCount := s.overflowCount + 1)
  }

  /**
   * `reset_all`: forget the book, the positions, every event counter and the
   * overflow flag.  Entry prices, last open prices, accumulators, the overflow
   * count and the restart flag survive.
   */
  function ResetAll(s: Store): (r: Store)
    ensures r.topAsk == 0.0 && r.topBid == 0.0
    ensures r.currentLongs == 0.0 && r.currentShorts == 0.0
    ensures forall c: Counter :: r.counters.Get(c) == 0
    ensures !r.overflow
    ensures r.overflowCount == s.overflowCount
    ensures r.longEntryPrice == s.longEntryPrice && r.shortEntryPrice == s.shortEntryPrice
    ensures r.lastLongOpen == s.lastLongOpen && r.lastShortOpen == s.lastShortOpen
    ensures r.volume == s.volume && r.commission == s.commission && r.realizedProfit == s.realizedProfit
    ensures r.(topAsk := s.topAsk, topBid := s.topBid, currentLongs := s.currentLongs,
               currentShorts := s.currentShorts, counters := s.counters, overflow := s.overflow) == s
  {
    s.(topAsk := 0.0, topBid := 0.0, currentLongs := 0.0, currentShorts := 0.0,
       counters := NoEvents, overflow := false)
  }

  /** After a reset, an overflow is still counted but no longer active, and a new one counts on top. */
  lemma OverflowCountSurvivesReset(s: Store)
    ensures !ResetAll(StartOverflow(s)).overflow
    ensures ResetAll(StartOverflow(s)).overflowCount == s.overflowCount + 1
    ensures StartOverflow(ResetAll(StartOverflow(s))).overflowCount == s.overflowCount + 2
  {
  }

  /** `set_need_restart_true`: request a restart and raise the overflow flag (the count is untouched). */
  function SetNeedRestartTrue(s: Store): (r: Store)
    ensures r.needRestart && r.overflow
    ensures r.overflowCount == s.overflowCount
    ensures r.(needRestart := s.needRestart, overflow := s.overflow) == s
  {
    s.(needRestart := true, overflow := true)
  }

  /** `set_need_restart_false`: clear the restart request only. */
  function SetNeedRestartFalse(s: Store): (r: Store)
    ensures !r.needRestart && r.overflow == s.overflow
    ensures r.(needRestart := s.needRestart) == s
  {
    s.(needRestart := false)
  }

  /** `set_last_prices` after `wait_marketprice`: both last open prices become the market price. */
  function SetLastPrices(s: Store, marketPrice: real): (r: Store)
    ensures r.lastLongOpen == marketPrice && r.lastShortOpen == marketPrice
    ensures r.(lastLongOpen := s.lastLongOpen, lastShortOpen := s.lastShortOpen) == s
  {
    s.(lastLongOpen := marketPrice, lastShortOpen := marketPrice)
  }
}

=== FILE: trader.dfy ===
/**
 * `post_initial_orders` and `trader_loop` of src/main.rs: the ladder both
 * sides start from, the overflow recovery that cancels everything and starts
 * again, and one iteration of the loop.
 */
module TraderLoop {
  import opened Orders
  import opened TradingState
  import opened Ladder
  import opened Reconciler

  // ---------------------------------------------------------------- initial ladder

  /** a0, b0, a1, b1, ...: the order in which the source queues the two sides. */
  function Interleave<T>(a: seq<T>, b: seq<T>): (r: seq<T>)
    requires |a| == |b|
    ensures |r| == 2 * |a|
  {
    if |a| == 0 then [] else [a[0], b[0]] + Interleave(a[1..], b[1..])
  }

  /** Slot 2i holds a[i] and slot 2i + 1 holds b[i]. */
  lemma {:induction false} InterleaveIndex<T>(a: seq<T>, b: seq<T>, i: nat)
    requires |a| == |b| && i < |a|
    ensures Interleave(a, b)[2 * i] == a[i] && Interleave(a, b)[2 * i + 1] == b[i]
  {
    if i > 0 {
      InterleaveIndex(a[1..], b[1..], i - 1);
    }
  }

  /** The four orders the loop tracks, and the increments the sides were last moved with. */
  datatype Trader = Trader(longs: seq<Order>, shorts: seq<Order>, closeLong: Order, closeShort: Order,
                           lastLongInc: real, lastShortInc: real)

  /** What one iteration sends to the exchange. */
  datatype Outbox = Outbox(cancelAll: bool, cancels: seq<Order>, posts: seq<Order>)

  /** Fresh ids for every `Order::new` an iteration may make. */
  datatype Fresh = Fresh(longA: seq<OrderId>, longB: seq<OrderId>, shortA: seq<OrderId>, shortB: seq<OrderId>,
                         closeLong: OrderId, closeShort: OrderId)

  predicate FreshFor(f: Fresh, n: nat) {
    |f.longA| == n && |f.longB| == n && |f.shortA| == n && |f.shortB| == n
  }

  /**
   * `post_initial_orders`: the long side from market price - margin down by
   * the long increment, the short side from market price + margin up by the
   * short increment, both carrying the distribution of their open pool, plus
   * a close order per side for the whole position at its close price.  The
   * posts are L0, S0, L1, S1, ..., then the long close, then the short close.
   */
  function InitialOrders(s: Store, marketPrice: real, longInc: real, shortInc: real, f: Fresh): (r: (Trader, Outbox))
    requires FreshFor(f, s.cfg.orderAmount)
    ensures var t := r.0; var n := s.cfg.orderAmount;
      && |t.longs| == n && |t.shorts| == n
      && AllRungs(t.longs, Long) && ProgressionFrom(t.longs, Long, marketPrice - s.cfg.margin, longInc)
      && AllRungs(t.shorts, Short) && ProgressionFrom(t.shorts, Short, marketPrice + s.cfg.margin, shortInc)
      && Quantities(t.longs) == Target(s.cfg, n, MaxOpen(s, Long))
      && Quantities(t.shorts) == Target(s.cfg, n, MaxOpen(s, Short))
      && t.closeLong == Order(ClosePrice(s, Long), MaxClose(s, Long), false, true, f.closeLong)
      && t.closeShort == Order(ClosePrice(s, Short), MaxClose(s, Short), false, false, f.closeShort)
      && t.lastLongInc == longInc && t.lastShortInc == shortInc
    ensures !r.1.cancelAll && r.1.cancels == []
    ensures r.1.posts == Interleave(r.0.longs, r.0.shorts) + [r.0.closeLong, r.0.closeShort]
  {
    var n := s.cfg.orderAmount;
    var longs := Rungs(Long, marketPrice - s.cfg.margin, longInc, Target(s.cfg, n, MaxOpen(s, Long)), f.longA);
    var shorts := Rungs(Short, marketPrice + s.cfg.margin, shortInc, Target(s.cfg, n, MaxOpen(s, Short)), f.shortA);
    var closeLong := NewOrder(ClosePrice(s, Long), MaxClose(s, Long), false, true, f.closeLong);
    var closeShort := NewOrder(ClosePrice(s, Short), MaxClose(s, Short), false, false, f.closeShort);
    (Trader(longs, shorts, closeLong, closeShort, longInc, shortInc),
     Outbox(false, [], Interleave(longs, shorts) + [closeLong, closeShort]))
  }

  lemma NonNegProduct(a: real, b: real)
    requires a >= 0.0 && b >= 0.0
    ensures a * b >= 0.0
  {
  }

  /** With a non-negative increment every rung lies at or beyond rung 0, away from the book. */
  lemma RungsBeyondOrigin(d: Direction, p0: real, inc: real, q: seq<real>, ids: seq<OrderId>)
    requires |ids| == |q| && inc >= 0.0
    ensures var l := Rungs(d, p0, inc, q, ids);
      forall i :: 0 <= i < |l| ==> if d.IsLong() then l[i].price <= p0 else l[i].price >= p0
  {
    var l := Rungs(d, p0, inc, q, ids);
    forall i | 0 <= i < |l|
      ensures if d.IsLong() then l[i].price <= p0 else l[i].price >= p0
    {
      NonNegProduct(i as real, inc);
    }
  }

  /**
   * With a non-negative margin and increments, every long rung starts at or
   * below every short rung: the long side at or below market price - margin,
   * the short side at or above market price + margin.
   */
  lemma InitialSidesApart(s: Store, marketPrice: real, longInc: real, shortInc: real, f: Fresh)
    requires FreshFor(f, s.cfg.orderAmount)
    requires s.cfg.margin >= 0.0 && longInc >= 0.0 && shortInc >= 0.0
    ensures var t := InitialOrders(s, marketPrice, longInc, shortInc, f).0;
      && (forall i :: 0 <= i < |t.longs| ==> t.longs[i].price <= marketPrice - s.cfg.margin)
      && (forall j :: 0 <= j < |t.shorts| ==> t.shorts[j].price >= marketPrice + s.cfg.margin)
      && (forall i, j :: 0 <= i < |t.longs| && 0 <= j < |t.shorts| ==> t.longs[i].price <= t.shorts[j].price)
  {
    var n := s.cfg.orderAmount;
    RungsBeyondOrigin(Long, marketPrice - s.cfg.margin, longInc, Target(s.cfg, n, MaxOpen(s, Long)), f.longA);
    RungsBeyondOrigin(Short, marketPrice + s.cfg.margin, shortInc, Target(s.cfg, n, MaxOpen(s, Short)), f.shortA);
  }

  // ---------------------------------------------------------------- the loop invariant

  /**
   * What the loop relies on: N >= 1 rungs per side, open rungs of the right
   * side in arithmetic progression of the recorded increment, positive
   * recorded increments, and close orders of the right side.
   */
  predicate Valid(t: Trader, n: nat) {
    && n >= 1 && |t.longs| == n && |t.shorts| == n
    && t.lastLongInc > 0.0 && t.lastShortInc > 0.0
    && SideValid(t.longs, Long, t.lastLongInc) && SideValid(t.shorts, Short, t.lastShortInc)
    && !t.closeLong.isOpen && t.closeLong.isLong && !t.closeShort.isOpen && !t.closeShort.isLong
  }

  /**
   * The initial ladder satisfies the loop invariant when the loop remembers
   * the increments the ladder was laid out with (the corrected start; see
   * `LoopStartAsWritten` for the start as written).
   */
  lemma InitialValid(s: Store, marketPrice: real, longInc: real, shortInc: real, f: Fresh)
    requires FreshFor(f, s.cfg.orderAmount) && s.cfg.orderAmount >= 1
    requires longInc > 0.0 && shortInc > 0.0
    ensures Valid(InitialOrders(s, marketPrice, longInc, shortInc, f).0, s.cfg.orderAmount)
  {
    var t := InitialOrders(s, marketPrice, longInc, shortInc, f).0;
    RungZero(Long, marketPrice - s.cfg.margin, longInc);
    RungZero(Short, marketPrice + s.cfg.margin, shortInc);
    assert t.longs[0].price == marketPrice - s.cfg.margin;
    assert t.shorts[0].price == marketPrice + s.cfg.margin;
  }

  /**
   * The start of `trader_loop` as the source writes it: the ladder laid out
   * by `post_initial_orders` is taken over unchanged, but the increments it
   * remembers are read afresh after the initial post has been awaited, so a
   * fill or account update during that post can make them differ from the
   * increments the ladder was laid out with.
   */
  function LoopStartAsWritten(init: Trader, rereadLong: real, rereadShort: real): (t: Trader)
    ensures t.longs == init.longs && t.shorts == init.shorts
    ensures t.closeLong == init.closeLong && t.closeShort == init.closeShort
    ensures t.lastLongInc == rereadLong && t.lastShortInc == rereadShort
  {
    init.(lastLongInc := rereadLong, lastShortInc := rereadShort)
  }

  /**
   * With two or more rungs, the loop as written starts outside its
   * invariant whenever the long increment read at the start of the loop
   * differs from the one the initial ladder was laid out with.
   */
  lemma LoopStartAsWrittenStale(s: Store, marketPrice: real, longInc: real, shortInc: real, f: Fresh,
                                rereadLong: real, rereadShort: real)
    requires FreshFor(f, s.cfg.orderAmount) && s.cfg.orderAmount >= 2
    requires rereadLong != longInc
    ensures !Valid(LoopStartAsWritten(InitialOrders(s, marketPrice, longInc, shortInc, f).0, rereadLong, rereadShort),
                   s.cfg.orderAmount)
  {
    var l := InitialOrders(s, marketPrice, longInc, shortInc, f).0.longs;
    var p0 := marketPrice - s.cfg.margin;
    assert l[0].price == RungPrice(Long, p0, longInc, 0) == p0;
    assert l[1].price == RungPrice(Long, p0, longInc, 1) == p0 - longInc;
  }

  // ---------------------------------------------------------------- overflow recovery

  /**
   * The recovery branch of `trader_loop` as the source writes it: cancel
   * everything, reset the state, and lay the ladder out afresh with the
   * increments of the moment, but keep the last increments recorded before
   * the overflow.  `seen` is the state when the orders are reposted (the
   * feeds refill the book during the waits).
   */
  function RecoverAsWritten(t: Trader, seen: Store, marketPrice: real, longInc: real, shortInc: real, f: Fresh): (r: (Trader, Store, Outbox))
    requires FreshFor(f, seen.cfg.orderAmount)
    ensures r.0.lastLongInc == t.lastLongInc && r.0.lastShortInc == t.lastShortInc
    ensures ProgressionFrom(r.0.longs, Long, marketPrice - seen.cfg.margin, longInc)
    ensures ProgressionFrom(r.0.shorts, Short, marketPrice + seen.cfg.margin, shortInc)
    ensures r.1 == SetLastPrices(seen, marketPrice)
    ensures r.2.cancelAll
  {
    var (init, out) := InitialOrders(seen, marketPrice, longInc, shortInc, f);
    (init.(lastLongInc := t.lastLongInc, lastShortInc := t.lastShortInc),
     SetLastPrices(seen, marketPrice),
     out.(cancelAll := true))
  }

  /**
   * After the recovery as written, a long side of two or more rungs is not a
   * progression of its recorded increment whenever the increment changed
   * during the overflow.
   */
  lemma RecoverAsWrittenStale(t: Trader, seen: Store, marketPrice: real, longInc: real, shortInc: real, f: Fresh)
    requires FreshFor(f, seen.cfg.orderAmount) && seen.cfg.orderAmount >= 2
    requires t.lastLongInc != longInc
    ensures !Progression(RecoverAsWritten(t, seen, marketPrice, longInc, shortInc, f).0.longs, Long, t.lastLongInc)
  {
    var l := RecoverAsWritten(t, seen, marketPrice, longInc, shortInc, f).0.longs;
    var p0 := marketPrice - seen.cfg.margin;
    assert l[0].price == RungPrice(Long, p0, longInc, 0) == p0;
    assert l[1].price == RungPrice(Long, p0, longInc, 1) == p0 - longInc;
  }

  /**
   * The stale increment then corrupts the next shift: a two-rung long side
   * laid out with twice the recorded increment, shifted out by one fill,
   * ends with both rungs at the same price.
   */
  lemma RecoverAsWrittenThenFill(t: Trader, seen: Store, marketPrice: real, shortInc: real, f: Fresh,
                                 book: real, pool: real, idsA: seq<OrderId>, idsB: seq<OrderId>)
    requires FreshFor(f, seen.cfg.orderAmount) && seen.cfg.orderAmount == 2
    requires t.lastLongInc > 0.0 && |idsA| == 2 && |idsB| == 2
    ensures var t' := RecoverAsWritten(t, seen, marketPrice, 2.0 * t.lastLongInc, shortInc, f).0;
      var side := SideTick(Long, t'.longs, 1, book, t'.lastLongInc, t'.lastLongInc, pool, seen.cfg, idsA, idsB);
      side.ladder[0].price == side.ladder[1].price
  {
    var c := t.lastLongInc;
    var t' := RecoverAsWritten(t, seen, marketPrice, 2.0 * c, shortInc, f).0;
    var p0 := marketPrice - seen.cfg.margin;
    assert t'.longs[0].price == RungPrice(Long, p0, 2.0 * c, 0) == p0;
    assert t'.longs[1].price == RungPrice(Long, p0, 2.0 * c, 1) == p0 - 2.0 * c;
    var adv := Advance(t'.longs, Long, 1, c, idsA);
    assert adv.ladder[0] == t'.longs[1];
    assert adv.ladder[1].price == Away(Long, t'.longs[0].price, 2 as real * c);
  }

  /**
   * The reverse case: a two-rung long side laid out with the increment c
   * while the loop remembers 2c, shifted out by one fill at the remembered
   * increment, ends with a gap of 3c instead of 2c, so it is no longer a
   * progression of the remembered increment.
   */
  lemma RecoverAsWrittenThenFillUneven(t: Trader, seen: Store, marketPrice: real, longInc: real, shortInc: real, f: Fresh,
                                       book: real, pool: real, idsA: seq<OrderId>, idsB: seq<OrderId>)
    requires FreshFor(f, seen.cfg.orderAmount) && seen.cfg.orderAmount == 2
    requires longInc > 0.0 && t.lastLongInc == 2.0 * longInc && |idsA| == 2 && |idsB| == 2
    ensures var t' := RecoverAsWritten(t, seen, marketPrice, longInc, shortInc, f).0;
      var side := SideTick(Long, t'.longs, 1, book, t'.lastLongInc, t'.lastLongInc, pool, seen.cfg, idsA, idsB);
      && side.ladder[0].price - side.ladder[1].price == 3.0 * longInc
      && !Progression(side.ladder, Long, t.lastLongInc)
  {
    var c := longInc;
    var t' := RecoverAsWritten(t, seen, marketPrice, c, shortInc, f).0;
    var p0 := marketPrice - seen.cfg.margin;
    assert t'.longs[0].price == RungPrice(Long, p0, c, 0) == p0;
    assert t'.longs[1].price == RungPrice(Long, p0, c, 1) == p0 - c;
    var adv := Advance(t'.longs, Long, 1, 2.0 * c, idsA);
    assert adv.ladder[0] == t'.longs[1];
    assert adv.ladder[1].price == Away(Long, t'.longs[0].price, 2 as real * (2.0 * c));
  }

  /**
   * The corrected recovery: the recorded increments are the ones the new
   * ladder was laid out with.
   */
  function Recover(seen: Store, marketPrice: real, longInc: real, shortInc: real, f: Fresh): (r: (Trader, Store, Outbox))
    requires FreshFor(f, seen.cfg.orderAmount)
    ensures r.0.lastLongInc == longInc && r.0.lastShortInc == shortInc
    ensures r.0 == InitialOrders(seen, marketPrice, longInc, shortInc, f).0
    ensures r.1 == SetLastPrices(seen, marketPrice)
    ensures r.2.cancelAll && r.2.cancels == [] && r.2.posts == InitialOrders(seen, marketPrice, longInc, shortInc, f).1.posts
  {
    var (init, out) := InitialOrders(seen, marketPrice, longInc, shortInc, f);
    (init, SetLastPrices(seen, marketPrice), out.(cancelAll := true))
  }

  // ---------------------------------------------------------------- one iteration

  /**
   * The regular branch of `trader_loop`: take the snapshot, move each side,
   * refresh each close order, and send the long side's orders, then the
   * short side's, then the long close and the short close.
   */
  function TraderTick(t: Trader, s: Store, longInc: real, shortInc: real, f: Fresh): (r: (Trader, Store, Outbox))
    requires Valid(t, s.cfg.orderAmount) && FreshFor(f, s.cfg.orderAmount)
    ensures r.1.counters == NoEvents && r.1.(counters := s.counters) == s
    ensures !r.2.cancelAll
    ensures r.0.lastLongInc == t.lastLongInc || r.0.lastLongInc == longInc
    ensures r.0.lastShortInc == t.lastShortInc || r.0.lastShortInc == shortInc
  {
    var (u, s1) := GetUpdatesDrainBoth(s, longInc, shortInc);
    var long := SideTick(Long, t.longs, u.longShift, u.topBid, t.lastLongInc, u.longIncrement,
                         MaxOpen(s1, Long), s.cfg, f.longA, f.longB);
    var short := SideTick(Short, t.shorts, u.shortShift, u.topAsk, t.lastShortInc, u.shortIncrement,
                          MaxOpen(s1, Short), s.cfg, f.shortA, f.shortB);
    var cl := CloseRepost(t.closeLong, u.closeLongRepost, u.currentLongs, u.longClosePrice, Long, f.closeLong);
    var cs := CloseRepost(t.closeShort, u.closeShortRepost, u.currentShorts, u.shortClosePrice, Short, f.closeShort);
    (Trader(long.ladder, short.ladder, cl.order, cs.order, long.lastInc, short.lastInc),
     s1,
     Outbox(false, long.cancels + short.cancels + cl.cancels + cs.cancels,
                   long.posts + short.posts + cl.posts + cs.posts))
  }

  /**
   * One iteration of `trader_loop`.  On overflow: cancel everything, reset
   * the state, let the feeds refill it (`feed`), and repost the initial
   * ladder.  Otherwise: one regular tick.
   */
  function LoopIteration(t: Trader, s: Store, feed: Store -> Store, marketPrice: real,
                         longInc: real, shortInc: real, f: Fresh): (r: (Trader, Store, Outbox))
    requires Valid(t, s.cfg.orderAmount) && FreshFor(f, s.cfg.orderAmount)
    requires feed(ResetAll(s)).cfg == s.cfg
    ensures s.overflow ==> r.2.cancelAll && r.0.lastLongInc == longInc && r.0.lastShortInc == shortInc
    ensures !s.overflow ==> !r.2.cancelAll && r.1.counters == NoEvents
  {
    if s.overflow then Recover(feed(ResetAll(s)), marketPrice, longInc, shortInc, f)
    else TraderTick(t, s, longInc, shortInc, f)
  }

  /** Every iteration keeps the loop invariant, given positive increments. */
  lemma LoopKeepsValid(t: Trader, s: Store, feed: Store -> Store, marketPrice: real,
                       longInc: real, shortInc: real, f: Fresh)
    requires Valid(t, s.cfg.orderAmount) && FreshFor(f, s.cfg.orderAmount)
    requires feed(ResetAll(s)).cfg == s.cfg
    requires longInc > 0.0 && shortInc > 0.0
    ensures Valid(LoopIteration(t, s, feed, marketPrice, longInc, shortInc, f).0, s.cfg.orderAmount)
  {
    if s.overflow {
      InitialValid(feed(ResetAll(s)), marketPrice, longInc, shortInc, f);
    } else {
      TickKeepsValid(t, s, longInc, shortInc, f);
    }
  }

  lemma TickKeepsValid(t: Trader, s: Store, longInc: real, shortInc: real, f: Fresh)
    requires Valid(t, s.cfg.orderAmount) && FreshFor(f, s.cfg.orderAmount)
    requires longInc > 0.0 && shortInc > 0.0
    ensures Valid(TraderTick(t, s, longInc, shortInc, f).0, s.cfg.orderAmount)
  {
    var (u, s1) := GetUpdatesDrainBoth(s, longInc, shortInc);
    SideTickValid(Long, t.longs, u.longShift, u.topBid, t.lastLongInc, u.longIncrement,
                  MaxOpen(s1, Long), s.cfg, f.longA, f.longB);
    SideTickValid(Short, t.shorts, u.shortShift, u.topAsk, t.lastShortInc, u.shortIncrement,
                  MaxOpen(s1, Short), s.cfg, f.shortA, f.shortB);
    CloseSettles(t.closeLong, u.closeLongRepost, u.currentLongs, u.longClosePrice, Long, f.closeLong, f.closeLong);
    CloseSettles(t.closeShort, u.closeShortRepost, u.currentShorts, u.shortClosePrice, Short, f.closeShort, f.closeShort);
  }
}

=== FILE: wrappers.dfy ===
/** Failure-compatible optional value, used where the source has an `Option`. */
module Wrappers {

  datatype Option<+T> = None | Some(value: T)

}
